=== FILE: README.md ===
# IdentityApp account core in Dafny

This project models the account core of IdentityApp, an ASP.NET Core API with an Angular client. It has two parts.

The server's `AccountController` handles these actions:

- local login;
- login and registration through Facebook or Google;
- local registration with a confirmation mail;
- e-mail confirmation;
- resending the confirmation link;
- the forgot-username-or-password mail;
- password reset.

The client's registration page has four field validators and a submission gate.

Each controller action is a pure function. It takes the user table and the request, and returns the HTTP response together with the table it leaves behind. The identity store (`UserManager`, `SignInManager`), the mail service, Facebook's `debug_token` endpoint, Google's ID-token signature check and the JWT service are collaborators. They are passed in as function-valued fields of `Account.Collaborators`. `Common.Call` represents a collaborator call that may throw, so the model can say what the controller does when one does.

The codec that carries confirmation and reset tokens in mailed links is modelled concretely:

- `Utf8` covers `Encoding.UTF8`;
- `Base64Url` covers `WebEncoders.Base64UrlEncode` and `Base64UrlDecode`, which is base64url without padding (section 5 of RFC 4648);
- `TokenCodec` composes the two.

Modules:

- `Common`: bytes, `Option`, `Call`.
- `Text`: ASCII `ToLower` and the identity store's upper-case lookup normaliser.
- `Utf8`, `Base64Url`, `TokenCodec`: the token transport form.
- `Providers`: provider names, `FacebookValidatedAsync`, `GoogleValidatedAsync`.
- `UserStore`: user rows, the store's lookups, and the table invariant.
- `Account`: the eight actions and their helpers.
- `AccountProperties`: lemmas that relate several calls.
- `AccountLifecycle`: request routing and the invariant kept by any sequence of requests.
- `RegisterForm`: the client's validators, `register()` and its error handling.

Behaviour of the code worth noting:

- Federated registration refuses a user id that any existing user already has as user name, whatever that user's provider. It does not look up the (provider, id) pair.
- Local registration leaves the new account unconfirmed. The auto-confirm line is commented out in the source.
- "E-mail in use" compares the lower-cased e-mail exactly against stored e-mails. Federated accounts have no e-mail, so they never collide with a local registration.
- Failures carry the controller's own messages, misspellings included.

The user table is a sequence of rows in insertion order, not a map. The controller's queries take the first match (`FirstOrDefault`, `Any`). The store's e-mail lookup takes the single match (`SingleOrDefault`) and throws on two. That case is an uncaught exception, modelled as `ServerError`. `UserStore.Valid` keeps stored e-mails lower case and distinct. `AccountLifecycle.RunKeepsInvariant` proves that every sequence of requests preserves it. Under the model's ASCII-only case folding, distinct lower-case e-mails also have distinct normal forms, so in a reachable table that exception never happens. With .NET's full Unicode folding the controller's own check is not enough: "ıa@x.co" (dotless i) and "ia@x.co" pass it as different addresses but share the normal form "IA@X.CO". There, it is the store's duplicate-user-name check in `CreateAsync` (the user name is the e-mail) that keeps the normalised e-mails unique.

## Model

| member | source | states |
|---|---|---|
| Base64Url.Encode | Api/Controllers/AccountController.cs:378 | the encoding uses only the URL-safe alphabet and its length is never 4k+1, so it carries no `=` padding |
| Base64Url.EncodeLength | Api/Controllers/AccountController.cs:376-378 | n bytes encode to ceil(4n/3) symbols, and the result is accepted by the decoder |
| Base64Url.RoundTrip | Api/Controllers/AccountController.cs:378 | decoding the encoding of any byte sequence gives back exactly those bytes |
| Base64Url.DecodeSucceedsIffWellFormed | Api/Controllers/AccountController.cs:239 | the decoder fails if and only if the text has a character outside the alphabet or a length of the form 4k+1 |
| Base64Url.Decode | Api/Controllers/AccountController.cs:239 | a successful decoding has exactly floor(3n/4) bytes for n symbols |
| Utf8.Encode | Api/Controllers/AccountController.cs:378 | the byte count lies between the character count and four times it, and equals the character count if and only if the text is ASCII |
| Utf8.Decode | Api/Controllers/AccountController.cs:240 | never more characters than bytes, and ASCII bytes read back as the same ASCII characters |
| Utf8.RoundTrip | Api/Controllers/AccountController.cs:240 | reading back the UTF-8 bytes of any string gives the same string |
| TokenCodec.EncodeToken | Api/Controllers/AccountController.cs:376-378 | the link form of any token is well-formed base64url, so it can always be read back |
| TokenCodec.DecodeToken | Api/Controllers/AccountController.cs:239-240 | reading a token from a link fails exactly when the text is not well-formed base64url |
| TokenCodec.RoundTrip | Api/Controllers/AccountController.cs:376-378 | the token read back from a link is exactly the token the store issued |
| Providers.ParseProvider | Api/Controllers/AccountController.cs:86-117 | only the exact names of Facebook and Google select a provider; any other name selects none |
| Providers.FacebookValidated | Api/Controllers/AccountController.cs:414-425 | true if and only if the response is non-null, marks the token valid and names exactly the claimed user; a throwing call is never true |
| Providers.GoogleValidated | Api/Controllers/AccountController.cs:427-460 | true if and only if the audience is the client id, the issuer is one of Google's two issuer strings, an expiry is present, representable and not before now, and the subject is the claimed user |
| Providers.GoogleRejectsOnAnySingleFailure | Api/Controllers/AccountController.cs:431-457 | any one failing audience, issuer, expiry or subject check rejects the token |
| Providers.GoogleAcceptsAtExpiry | Api/Controllers/AccountController.cs:446-452 | a token whose expiry equals the current time is still accepted |
| Providers.GoogleTotalOnCompleteClaims | Api/Controllers/AccountController.cs:427-460 | when all claims are present and the expiry is representable, the check answers yes or no and never throws |
| UserStore.FindByName | Api/Controllers/AccountController.cs:71 | finds a row whose user name matches case-insensitively, and finds none only when no row matches |
| UserStore.FindByEmail | Api/Controllers/AccountController.cs:231 | returns the only row whose e-mail matches case-insensitively, returns none when no row matches, and throws exactly when two rows match |
| UserStore.FindByProvider | Api/Controllers/AccountController.cs:119 | finds a row with exactly this user name and provider, and finds none only when no row has both |
| UserStore.FindByEmailNeverThrows | Api/Controllers/AccountController.cs:231 | in a valid table the e-mail lookup never meets two rows |
| UserStore.EmailExistsIffFound | Api/Controllers/AccountController.cs:368-371 | in a valid table the exact lower-case comparison that decides "e-mail in use" agrees with the store's case-insensitive e-mail lookup: the address is in use if and only if the lookup finds its row |
| UserStore.FindByEmailFindsMatch | Api/Controllers/AccountController.cs:231 | in a valid table the lookup returns the row whose e-mail matches |
| Account.ConfirmationMail | Api/Controllers/AccountController.cs:374-391 | the confirmation mail goes to the user's e-mail, and its link token reads back as the store's confirmation token |
| Account.RecoveryMail | Api/Controllers/AccountController.cs:394-411 | the recovery mail goes to the user's e-mail, and its link token reads back as the store's reset token |
| Account.Login | Api/Controllers/AccountController.cs:68-80 | the table is unchanged; success if and only if the user exists, is confirmed and the password checks, and success returns the user's names and JWT; "Invalid username or password" if and only if the user is unknown or the password fails; an unconfirmed user always gets "Please confirm you email." |
| Account.Verify | Api/Controllers/AccountController.cs:86-112 | the verdict is yes exactly when the chosen provider's acceptance conditions hold |
| Account.ProviderGate | Api/Controllers/AccountController.cs:173-204 | an unknown provider is "Invalid provider"; the gate passes if and only if the provider is known and its verifier returned true; otherwise Unauthorized with the provider's message |
| Account.LoginWithThirdParty | Api/Controllers/AccountController.cs:83-123 | the table is unchanged; a refused gate answers with the gate's response ("Invalid provider", or Unauthorized "Unable to login with" the provider); success if and only if the gate passes and some row has user name = user id and provider = the provider, and it returns that row's names and JWT; after a passed gate the only failure is "Unable to find your account" |
| Account.RegisterWithThirdParty | Api/Controllers/AccountController.cs:170-221 | a refused gate answers with the gate's response ("Invalid provider", or Unauthorized "Unable to register with" the provider) and changes nothing; an existing user name equal to the user id is refused, whatever that user's provider; success if and only if a row was added; the row has user name = user id, the provider, no e-mail, unconfirmed, lower-cased names; when the store refuses to create the row, its error list is returned as BadRequest and the table is unchanged |
| Account.Register | Api/Controllers/AccountController.cs:127-160 | an e-mail already stored (after lower-casing) is refused with the table unchanged; a created row has lower-cased names and e-mail, user name = e-mail, unconfirmed, no provider; success needs the mail sent; a failed or throwing send reports an error but keeps the row; when the store refuses to create the row, its error list is returned as BadRequest and the table is unchanged |
| Account.ConfirmEmail | Api/Controllers/AccountController.cs:228-254 | unknown e-mail is "not registered"; a confirmed user is refused whatever the token; for an unconfirmed user the answer is "Email confirmed" or "Invalid token", and "Invalid token" if and only if the token is malformed or the store rejects it; success exactly when the table changes, and it changes only that user's confirmed flag |
| Account.ResendEmailConfirmationLink | Api/Controllers/AccountController.cs:260-283 | the table is unchanged; an empty e-mail is refused first; a lookup that throws is a server error; unknown e-mail is "not registerd"; a confirmed user is refused; success if and only if the user is unconfirmed and the confirmation mail was sent |
| Account.ForgotUsernameOrPassword | Api/Controllers/AccountController.cs:289-312 | the table is unchanged; an empty e-mail is refused first; a lookup that throws is a server error; unknown e-mail is "not registerd"; an unconfirmed user is refused; success if and only if the user is confirmed and the recovery mail was sent |
| Account.ResetPassword | Api/Controllers/AccountController.cs:318-343 | the table is unchanged; unknown e-mail is "not registerd"; an unconfirmed user is refused; for a confirmed user the answer is "Password reset success" or "Invalid token", and "Invalid token" if and only if the token is malformed or the store rejects it; success only after the store accepted the decoded token |
| AccountProperties.LoginUnconfirmedIgnoresPassword | Api/Controllers/AccountController.cs:74-77 | for an unconfirmed user neither the password nor the store's password check affects the result |
| AccountProperties.LoginUnknownUserLooksLikeWrongPassword | Api/Controllers/AccountController.cs:71-77 | an unknown user name and a wrong password give identical outcomes |
| AccountProperties.UnknownProviderDecidedFirst | Api/Controllers/AccountController.cs:114-117 | with an unknown provider both third-party actions answer "Invalid provider" whatever the table, collaborators, clock, token or user id |
| AccountProperties.VerifierThrowingIsVerifierRefusing | Api/Controllers/AccountController.cs:88-112 | a verifier that throws and one that says no lead to identical outcomes in both third-party actions: Unauthorized "Unable to login with" or "Unable to register with" the provider, with the table unchanged |
| AccountProperties.ForeignIssuerRefused | Api/Controllers/AccountController.cs:436-439 | a Google token whose issuer is "evil.com" never logs anyone in |
| AccountProperties.RegisterSameEmailTwiceRefused | Api/Controllers/AccountController.cs:130-142 | once a registration has created an account, registering again with the same e-mail in any letter case is refused, even if the first confirmation mail failed |
| AccountProperties.ConfirmedEmailSkipsTokenCheck | Api/Controllers/AccountController.cs:235-241 | for a confirmed user neither the token nor the store's token check affects the result |
| AccountProperties.MailedConfirmationLinkConfirms | Api/Controllers/AccountController.cs:237-245 | with a store that accepts exactly the tokens it issued, the link mailed at registration confirms the new account, looked up with the e-mail in any letter case |
| AccountProperties.MailedResetLinkResets | Api/Controllers/AccountController.cs:326-334 | with a store that accepts exactly the reset tokens it issued, the link from a successful recovery mail resets the password |
| AccountLifecycle.RegisterPreservesValid | Api/Controllers/AccountController.cs:130-145 | local registration leaves the table as it was or appends exactly the one local row built from the request, and keeps e-mails lower case and distinct |
| AccountLifecycle.RegisterWithThirdPartyPreservesValid | Api/Controllers/AccountController.cs:206-218 | federated registration leaves the table as it was or appends exactly the one federated row built from the request, and keeps the table valid |
| AccountLifecycle.ConfirmEmailKeepsInvariant | Api/Controllers/AccountController.cs:241-245 | confirmation leaves the table as it was or marks exactly one previously unconfirmed row confirmed, and keeps the table valid |
| AccountLifecycle.HandleKeepsInvariant | Api/Controllers/AccountController.cs:68-343 | every action keeps the table valid; rows are never removed, and a confirmed flag is never cleared |
| AccountLifecycle.RunKeepsInvariant | Api/Controllers/AccountController.cs:68-343 | any sequence of requests keeps the table valid and only lets it evolve |
| AccountLifecycle.ReachableLookupsNeverThrow | Api/Controllers/AccountController.cs:231 | in any table the actions can reach from an empty one, the e-mail lookup never throws |
| RegisterForm.MatchesEmailPattern | ClientApp/src/app/account/register/register.component.ts:66 | the scanning recogniser accepts a string if and only if it can be split as word characters, `@`, domain characters, `.`, two or three letters |
| RegisterForm.AcceptedEmailShape | ClientApp/src/app/account/register/register.component.ts:66 | an accepted address has exactly one `@` and exactly one `.`, with two or three characters after the last `.` |
| RegisterForm.Utf16Length | ClientApp/src/app/account/register/register.component.ts:64-67 | JavaScript's string length lies between the character count and twice it, and equals the character count if and only if every character is in the Basic Multilingual Plane |
| RegisterForm.NameValid | ClientApp/src/app/account/register/register.component.ts:64-65 | the required, minLength(3) and maxLength(15) validators together accept exactly the values of 3 to 15 UTF-16 code units, JavaScript's `length`, so a character outside the Basic Multilingual Plane counts twice |
| RegisterForm.AstralNamesCountCodeUnits | ClientApp/src/app/account/register/register.component.ts:64-65 | a name of two emoji (four code units) passes the name validators, and one of eight emoji (sixteen code units) fails maxLength(15) |
| RegisterForm.EmailValid | ClientApp/src/app/account/register/register.component.ts:66 | the required and pattern validators together accept exactly the strings in the pattern's language; the pattern admits only ASCII, so reading it over code units or over characters makes no difference |
| RegisterForm.PasswordValid | ClientApp/src/app/account/register/register.component.ts:67 | the required, minLength(6) and maxLength(15) validators together accept exactly the values of 6 to 15 UTF-16 code units, JavaScript's `length` |
| RegisterForm.Register | ClientApp/src/app/account/register/register.component.ts:71-77 | submitting always sets `submitted` and clears the errors; the fields are sent if and only if all four are valid, and they are sent unchanged |
| RegisterForm.SubmissionErrorShown | ClientApp/src/app/account/register/register.component.ts:71-93 | after a submission fails, `OnRegisterError` leaves the page showing exactly the server's list, or exactly its one message, and nothing from before the submission |

## Left out

- `RefreshUserToken` and the JWT itself: the JWT service is not part of this model. `CreateJWT` is the opaque collaborator `createJwt`.
- Identity-store internals are collaborators: password hashing and checking (including lockout), token generation and cryptographic validation, and `CreateAsync`'s validation and failure reasons.
- Token generation failures: token generation is a total function. A throwing generator would take the same `catch` path as a failed send.
- The HTML body and the link URL of the mails, and the mail transport. A mail is only its recipient, its purpose and the encoded token; `send` is a collaborator that may fail or throw.
- The Facebook `debug_token` HTTP request and Google's signature check are collaborator results. The application secret and the HTTP client are not modelled.
- Google's `Audience` claim is a single optional string; a list-valued audience is not modelled.
- Time is whole Unix seconds. The sub-second part of `DateTime.Now` is dropped, so a token is accepted throughout its expiry second.
- Null request fields (a null provider, user name or e-mail throws in the source) are not modelled: request strings are never null.
- The values of `SD.Facebook` and `SD.Google` are not part of this model. They are taken to be `"facebook"` and `"google"`, the names the client's routes use.
- Case mapping folds ASCII letters only, and the lookup normaliser's Unicode NFC step (`string.Normalize()`) is not modelled. .NET's `ToLower` and `ToUpperInvariant` also fold other scripts, and NFC maps characters such as the Kelvin sign U+212A to `K`. So a user name written with the Kelvin sign finds the stored "kate" in the source, and finds nothing in the model.
- AccountLifecycle.ReachableLookupsNeverThrow: holds because of the ASCII-only folding. With .NET's folding, two e-mails that differ only in a non-ASCII letter, such as "ıa@x.co" and "ia@x.co", both pass the controller's exact lower-case check yet normalise alike. Then only `CreateAsync`'s duplicate-user-name check, which the model leaves to the `create` collaborator, keeps the e-mail lookup from meeting two rows.
- The database collation is not modelled: `CheckEmailExistsAsync` and the federated-login query compare strings exactly.
- Base64Url.Decode, Base64Url.DecodeSucceedsIffWellFormed, TokenCodec.DecodeToken: the model rejects `+`, `/`, `=` and whitespace where .NET decodes them. For example "QQ==" decodes to the byte 0x41 in .NET, but the model rejects it, so `ConfirmEmail` answers "Invalid token". The unused low bits of a final partial group are ignored, as .NET does.
- Utf8.Decode: an undecodable byte becomes one U+FFFD. .NET replaces each maximal invalid subsequence with one U+FFFD. Well-formed input, which is all the round trip needs, decodes the same way in both. Lone UTF-16 surrogates cannot occur, since a Dafny `char` is a Unicode scalar value.
- `ResetPassword` leaves the user table unchanged: the password lives inside the identity store, so its effect on later logins is not modelled.
- `async`, `GetAwaiter().GetResult()` blocking and concurrency between requests.
- The account service's two HTTP POST wrappers (no logic).
- Form values are sequences of Unicode scalar values: a JavaScript string holding a lone surrogate is not modelled.
- On the registration page: Google and Facebook SDK buttons, script injection, navigation, notifications and logging.
- RegisterForm.OnRegisterError: error bodies are a plain message or an object with a string `errors` list. Identity error arrays and validation dictionaries are not modelled.

=== FILE: account.dfy ===
/** The account controller's actions, each a chain of guards over the user
    store. The identity store's operations, the mail service, the two
    providers and the JWT service are collaborators passed in as functions;
    every action returns its HTTP response together with the store it
    leaves behind. */
module Account {
  import opened Common
  import opened Text
  import opened UserStore
  import opened Providers
  import TokenCodec

  /** What `UserManager.CreateAsync` reports. */
  datatype CreateResult = Succeeded | Failed(errors: seq<string>)

  datatype MailPurpose = ConfirmEmailMail | ResetPasswordMail

  /** An outgoing mail as far as the controller decides it: the recipient,
      what it is for, and the encoded token its link carries. */
  datatype Mail = Mail(to: Option<string>, purpose: MailPurpose, token: string)

  /** The controller's collaborators. Each identity-store call is a function
      of the user row it is given; `create` also sees the store, since the
      identity store refuses duplicates by itself. */
  datatype Collaborators = Collaborators(
    checkPassword: (User, string) -> bool,
    create: (Store, User, Option<string>) -> CreateResult,
    confirmationToken: User -> string,
    confirmEmail: (User, string) -> Call<bool>,
    resetToken: User -> string,
    resetPassword: (User, string, string) -> Call<bool>,
    send: Mail -> Call<bool>,
    facebookDebugToken: string -> Call<Option<FacebookResult>>,
    googleValidate: string -> Call<GooglePayload>,
    createJwt: User -> string)

  /** The configuration the actions read: Google's client id for this
      application. */
  datatype Config = Config(googleClientId: string)

  datatype Body =
    | UserDto(firstName: string, lastName: string, jwt: string)
    | Notice(title: string, message: string)

  /** The action's HTTP result. `ServerError` is an exception the action
      does not catch. */
  datatype Response =
    | Ok(body: Body)
    | BadRequest(message: string)
    | BadRequestErrors(errors: seq<string>)
    | Unauthorized(message: string)
    | ServerError

  datatype Outcome = Outcome(response: Response, store: Store)

  const InvalidCredentials: string := "Invalid username or password"
  const ConfirmBeforeLogin: string := "Please confirm you email."
  const InvalidProvider: string := "Invalid provider"
  const AccountNotFound: string := "Unable to find your account"
  const SendFailed: string := "Failed to send email. Please contact admin"
  const ResendFailed: string := "Failed to send email. PLease contact admin"
  const NotRegistered: string := "This email address has not been registered yet"
  const NotRegisterd: string := "This email address has not been registerd yet"
  const AlreadyConfirmed: string := "Your email was confirmed before. Please login to your account"
  const AddressAlreadyConfirmed: string := "Your email address was confirmed before. Please login to your account"
  const InvalidToken: string := "Invalid token. Please try again"
  const InvalidEmail: string := "Invalid email"
  const ConfirmBeforeRecovery: string := "Please confirm your email address first."
  const ConfirmBeforeReset: string := "PLease confirm your email address first"

  const AccountCreated: Body := Notice("Account Created", "Your account has been created, please confrim your email address")
  const EmailConfirmed: Body := Notice("Email confirmed", "Your email address is confirmed. You can login now")
  const LinkSent: Body := Notice("Confirmation link sent", "Please confrim your email address")
  const RecoverySent: Body := Notice("Forgot username or password email sent", "Please check your email")
  const PasswordReset: Body := Notice("Password reset success", "Your password has been reset")

  function EmailInUse(email: string): string {
    "An existing account is using " + email + ", email addres. Please try with another email address"
  }

  function AlreadyRegistered(provider: string): string {
    "You have an account already. Please login with your " + provider
  }

  function UnableWith(action: string, p: Provider): string {
    "Unable to " + action + " with " + Name(p)
  }

  /** `CreateApplicationUserDto`: the stored user's names, not the
      request's, and a JWT minted for that user. */
  function UserDtoOf(u: User, c: Collaborators): Body {
    UserDto(u.firstName, u.lastName, c.createJwt(u))
  }

  // ---------------------------------------------------------------------
  // Mail

  /** The confirmation mail of `SendConfirmEMailAsync`. Its link carries
      the store's confirmation token in transport form. */
  function ConfirmationMail(u: User, c: Collaborators): (m: Mail)
    ensures m.to == u.email && m.purpose == ConfirmEmailMail
    ensures TokenCodec.DecodeToken(m.token) == Some(c.confirmationToken(u))
  {
    TokenCodec.RoundTrip(c.confirmationToken(u));
    Mail(u.email, ConfirmEmailMail, TokenCodec.EncodeToken(c.confirmationToken(u)))
  }

  /** The mail of `SendForgotUsernameOrPasswordEmail`. Its link carries the
      store's password-reset token in transport form. */
  function RecoveryMail(u: User, c: Collaborators): (m: Mail)
    ensures m.to == u.email && m.purpose == ResetPasswordMail
    ensures TokenCodec.DecodeToken(m.token) == Some(c.resetToken(u))
  {
    TokenCodec.RoundTrip(c.resetToken(u));
    Mail(u.email, ResetPasswordMail, TokenCodec.EncodeToken(c.resetToken(u)))
  }

  /** Whether a call reported success; a call that threw never did. */
  predicate ReturnedTrue(call: Call<bool>) {
    call == Returned(true)
  }

  // ---------------------------------------------------------------------
  // Login

  /** `Login`. */
  function Login(s: Store, c: Collaborators, userName: string, password: string): (r: Outcome)
    ensures r.store == s
    ensures r.response.Ok? || r.response.Unauthorized?
    ensures r.response.Ok? <==>
              var i := FindByName(s, userName);
              i.Some? && s[i.value].emailConfirmed && c.checkPassword(s[i.value], password)
    ensures r.response.Ok? ==> r.response.body == UserDtoOf(s[FindByName(s, userName).value], c)
    ensures r.response == Unauthorized(InvalidCredentials) <==>
              var i := FindByName(s, userName);
              i.None? || (s[i.value].emailConfirmed && !c.checkPassword(s[i.value], password))
    ensures r.response == Unauthorized(ConfirmBeforeLogin) <==>
              var i := FindByName(s, userName);
              i.Some? && !s[i.value].emailConfirmed
  {
    match FindByName(s, userName)
    case None => Outcome(Unauthorized(InvalidCredentials), s)
    case Some(i) =>
      if !s[i].emailConfirmed then Outcome(Unauthorized(ConfirmBeforeLogin), s)
      else if !c.checkPassword(s[i], password) then Outcome(Unauthorized(InvalidCredentials), s)
      else Outcome(Ok(UserDtoOf(s[i], c)), s)
  }

  // ---------------------------------------------------------------------
  // Third-party login and registration

  /** The provider's verdict on an access token for `userId`. */
  function Verify(p: Provider, c: Collaborators, cfg: Config, now: int, accessToken: string, userId: string): (r: Call<bool>)
    ensures ReturnedTrue(r) <==>
              match p
              case Facebook => FacebookAccepts(c.facebookDebugToken(accessToken), userId)
              case Google => GoogleAccepts(c.googleValidate(accessToken), cfg.googleClientId, userId, now)
  {
    match p
    case Facebook => FacebookValidated(c.facebookDebugToken(accessToken), userId)
    case Google => GoogleValidated(c.googleValidate(accessToken), cfg.googleClientId, userId, now)
  }

  /** The outcome of the provider guard both third-party actions open with. */
  datatype Gate = Pass(provider: Provider) | Reject(response: Response)

  /** The provider guard: an unknown provider is a bad request; a verifier
      that says no or throws is unauthorized. */
  function ProviderGate(action: string, provider: string, c: Collaborators, cfg: Config, now: int,
                        accessToken: string, userId: string): (g: Gate)
    ensures ParseProvider(provider).None? ==> g == Reject(BadRequest(InvalidProvider))
    ensures g.Pass? <==>
              ParseProvider(provider).Some? && ReturnedTrue(Verify(ParseProvider(provider).value, c, cfg, now, accessToken, userId))
    ensures g.Pass? ==> Name(g.provider) == provider
    ensures ParseProvider(provider).Some? && g.Reject? ==>
              g.response == Unauthorized(UnableWith(action, ParseProvider(provider).value))
  {
    match ParseProvider(provider)
    case None => Reject(BadRequest(InvalidProvider))
    case Some(p) =>
      if ReturnedTrue(Verify(p, c, cfg, now, accessToken, userId)) then Pass(p)
      else Reject(Unauthorized(UnableWith(action, p)))
  }

  /** `LoginWithThirdParty`. */
  function LoginWithThirdParty(s: Store, c: Collaborators, cfg: Config, now: int,
                               provider: string, accessToken: string, userId: string): (r: Outcome)
    ensures r.store == s
    ensures ParseProvider(provider).None? ==> r.response == BadRequest(InvalidProvider)
    ensures ProviderGate("login", provider, c, cfg, now, accessToken, userId).Reject? ==>
              r == Outcome(ProviderGate("login", provider, c, cfg, now, accessToken, userId).response, s)
    ensures r.response.Ok? <==>
              && ProviderGate("login", provider, c, cfg, now, accessToken, userId).Pass?
              && exists j :: 0 <= j < |s| && s[j].userName == userId && s[j].provider == Some(provider)
    ensures r.response.Ok? ==>
              var j := FindByProvider(s, userId, provider);
              j.Some? && r.response.body == UserDtoOf(s[j.value], c)
    ensures ProviderGate("login", provider, c, cfg, now, accessToken, userId).Pass? && !r.response.Ok? ==>
              r.response == Unauthorized(AccountNotFound)
  {
    match ProviderGate("login", provider, c, cfg, now, accessToken, userId)
    case Reject(response) => Outcome(response, s)
    case Pass(_) =>
      match FindByProvider(s, userId, provider)
      case None => Outcome(Unauthorized(AccountNotFound), s)
      case Some(j) => Outcome(Ok(UserDtoOf(s[j], c)), s)
  }

  /** The row `RegisterWithThirdParty` adds. */
  function FederatedUser(userId: string, provider: string, firstName: string, lastName: string): User {
    User(userId, None, false, Some(provider), ToLower(firstName), ToLower(lastName))
  }

  /** `RegisterWithThirdParty`. */
  function RegisterWithThirdParty(s: Store, c: Collaborators, cfg: Config, now: int,
                                  provider: string, accessToken: string, userId: string,
                                  firstName: string, lastName: string): (r: Outcome)
    ensures ParseProvider(provider).None? ==> r == Outcome(BadRequest(InvalidProvider), s)
    ensures ProviderGate("register", provider, c, cfg, now, accessToken, userId).Reject? ==>
              r == Outcome(ProviderGate("register", provider, c, cfg, now, accessToken, userId).response, s)
    ensures ProviderGate("register", provider, c, cfg, now, accessToken, userId).Pass?
            && (exists j :: 0 <= j < |s| && HasUserName(s[j], userId)) ==>
              r == Outcome(BadRequest(AlreadyRegistered(provider)), s)
    ensures r.response.Ok? <==> r.store != s
    ensures r.store != s ==>
              && |r.store| == |s| + 1 && r.store[..|s|] == s
              && var u := r.store[|s|];
              && u.userName == userId && u.provider == Some(provider)
              && u.email.None? && !u.emailConfirmed
              && u.firstName == ToLower(firstName) && u.lastName == ToLower(lastName)
              && r.response.body == UserDtoOf(u, c)
    ensures r.response.Ok? <==>
              && ProviderGate("register", provider, c, cfg, now, accessToken, userId).Pass?
              && FindByName(s, userId).None?
              && c.create(s, FederatedUser(userId, provider, firstName, lastName), None).Succeeded?
    ensures ProviderGate("register", provider, c, cfg, now, accessToken, userId).Pass?
            && FindByName(s, userId).None?
            && c.create(s, FederatedUser(userId, provider, firstName, lastName), None).Failed? ==>
              r == Outcome(BadRequestErrors(c.create(s, FederatedUser(userId, provider, firstName, lastName), None).errors), s)
  {
    match ProviderGate("register", provider, c, cfg, now, accessToken, userId)
    case Reject(response) => Outcome(response, s)
    case Pass(_) =>
      if FindByName(s, userId).Some? then Outcome(BadRequest(AlreadyRegistered(provider)), s)
      else
        var u := FederatedUser(userId, provider, firstName, lastName);
        match c.create(s, u, None)
        case Failed(errors) => Outcome(BadRequestErrors(errors), s)
        case Succeeded => Outcome(Ok(UserDtoOf(u, c)), s + [u])
  }

  // ---------------------------------------------------------------------
  // Local registration

  /** The row `Register` adds: names and e-mail lower-cased, the e-mail
      doubling as user name, unconfirmed. */
  function LocalUser(firstName: string, lastName: string, email: string): User {
    User(ToLower(email), Some(ToLower(email)), false, None, ToLower(firstName), ToLower(lastName))
  }

  /** `Register`. */
  function Register(s: Store, c: Collaborators, firstName: string, lastName: string,
                    email: string, password: string): (r: Outcome)
    ensures EmailExists(s, email) ==> r == Outcome(BadRequest(EmailInUse(email)), s)
    ensures r.store == s || (|r.store| == |s| + 1 && r.store[..|s|] == s)
    ensures r.store != s <==>
              !EmailExists(s, email) && c.create(s, LocalUser(firstName, lastName, email), Some(password)).Succeeded?
    ensures r.store != s ==>
              var u := r.store[|s|];
              && u.userName == ToLower(email) && u.email == Some(ToLower(email))
              && !u.emailConfirmed && u.provider.None?
              && u.firstName == ToLower(firstName) && u.lastName == ToLower(lastName)
    ensures r.response.Ok? <==>
              r.store != s && ReturnedTrue(c.send(ConfirmationMail(r.store[|s|], c)))
    ensures r.response.Ok? ==> r.response.body == AccountCreated
    ensures r.store != s && !r.response.Ok? ==> r.response == BadRequest(SendFailed)
    ensures !EmailExists(s, email) && c.create(s, LocalUser(firstName, lastName, email), Some(password)).Failed? ==>
              r == Outcome(BadRequestErrors(c.create(s, LocalUser(firstName, lastName, email), Some(password)).errors), s)
  {
    if EmailExists(s, email) then Outcome(BadRequest(EmailInUse(email)), s)
    else
      var u := LocalUser(firstName, lastName, email);
      match c.create(s, u, Some(password))
      case Failed(errors) => Outcome(BadRequestErrors(errors), s)
      case Succeeded =>
        if ReturnedTrue(c.send(ConfirmationMail(u, c))) then Outcome(Ok(AccountCreated), s + [u])
        else Outcome(BadRequest(SendFailed), s + [u])
  }

  // ---------------------------------------------------------------------
  // E-mail confirmation and recovery

  /** The store with row `i` marked confirmed and nothing else changed. */
  function MarkConfirmed(s: Store, i: nat): (t: Store)
    requires i < |s|
    ensures |t| == |s| && t[i].emailConfirmed
    ensures forall j :: 0 <= j < |s| && j != i ==> t[j] == s[j]
    ensures t[i] == s[i].(emailConfirmed := true)
  {
    s[i := s[i].(emailConfirmed := true)]
  }

  /** `ConfirmEmail`. */
  function ConfirmEmail(s: Store, c: Collaborators, email: string, token: string): (r: Outcome)
    ensures FindByEmail(s, email) == Threw ==> r == Outcome(ServerError, s)
    ensures FindByEmail(s, email) == Returned(None) ==> r == Outcome(Unauthorized(NotRegistered), s)
    ensures FindByEmail(s, email).Returned? && FindByEmail(s, email).value.Some? ==>
              var u := s[FindByEmail(s, email).value.value];
              && (u.emailConfirmed ==> r == Outcome(BadRequest(AlreadyConfirmed), s))
              && (!u.emailConfirmed ==>
                    (r.response == BadRequest(InvalidToken) <==>
                       || TokenCodec.DecodeToken(token).None?
                       || !ReturnedTrue(c.confirmEmail(u, TokenCodec.DecodeToken(token).value))))
              && (!u.emailConfirmed ==> r.response == Ok(EmailConfirmed) || r.response == BadRequest(InvalidToken))
    ensures r.response.Ok? <==> r.store != s
    ensures r.response.Ok? ==>
              && r.response.body == EmailConfirmed
              && FindByEmail(s, email).Returned? && FindByEmail(s, email).value.Some?
              && var i := FindByEmail(s, email).value.value;
              && !s[i].emailConfirmed
              && TokenCodec.DecodeToken(token).Some?
              && ReturnedTrue(c.confirmEmail(s[i], TokenCodec.DecodeToken(token).value))
              && r.store == MarkConfirmed(s, i)
  {
    match FindByEmail(s, email)
    case Threw => Outcome(ServerError, s)
    case Returned(None) => Outcome(Unauthorized(NotRegistered), s)
    case Returned(Some(i)) =>
      if s[i].emailConfirmed then Outcome(BadRequest(AlreadyConfirmed), s)
      else
        match TokenCodec.DecodeToken(token)
        case None => Outcome(BadRequest(InvalidToken), s)
        case Some(decoded) =>
          if ReturnedTrue(c.confirmEmail(s[i], decoded)) then Outcome(Ok(EmailConfirmed), MarkConfirmed(s, i))
          else Outcome(BadRequest(InvalidToken), s)
  }

  /** `ResendEMailConfirmationLink`. */
  function ResendEmailConfirmationLink(s: Store, c: Collaborators, email: string): (r: Outcome)
    ensures r.store == s
    ensures email == "" ==> r.response == BadRequest(InvalidEmail)
    ensures email != "" && FindByEmail(s, email) == Threw ==> r.response == ServerError
    ensures email != "" && FindByEmail(s, email) == Returned(None) ==> r.response == Unauthorized(NotRegisterd)
    ensures r.response.Ok? <==>
              && email != ""
              && FindByEmail(s, email).Returned? && FindByEmail(s, email).value.Some?
              && !s[FindByEmail(s, email).value.value].emailConfirmed
              && ReturnedTrue(c.send(ConfirmationMail(s[FindByEmail(s, email).value.value], c)))
    ensures email != "" && FindByEmail(s, email).Returned? && FindByEmail(s, email).value.Some? ==>
              var u := s[FindByEmail(s, email).value.value];
              && (u.emailConfirmed ==> r.response == BadRequest(AddressAlreadyConfirmed))
              && (!u.emailConfirmed ==> r.response == Ok(LinkSent) || r.response == BadRequest(ResendFailed))
  {
    if email == "" then Outcome(BadRequest(InvalidEmail), s)
    else
      match FindByEmail(s, email)
      case Threw => Outcome(ServerError, s)
      case Returned(None) => Outcome(Unauthorized(NotRegisterd), s)
      case Returned(Some(i)) =>
        if s[i].emailConfirmed then Outcome(BadRequest(AddressAlreadyConfirmed), s)
        else if ReturnedTrue(c.send(ConfirmationMail(s[i], c))) then Outcome(Ok(LinkSent), s)
        else Outcome(BadRequest(ResendFailed), s)
  }

  /** `ForgotUsernameOrPassword`. */
  function ForgotUsernameOrPassword(s: Store, c: Collaborators, email: string): (r: Outcome)
    ensures r.store == s
    ensures email == "" ==> r.response == BadRequest(InvalidEmail)
    ensures email != "" && FindByEmail(s, email) == Threw ==> r.response == ServerError
    ensures email != "" && FindByEmail(s, email) == Returned(None) ==> r.response == Unauthorized(NotRegisterd)
    ensures r.response.Ok? <==>
              && email != ""
              && FindByEmail(s, email).Returned? && FindByEmail(s, email).value.Some?
              && s[FindByEmail(s, email).value.value].emailConfirmed
              && ReturnedTrue(c.send(RecoveryMail(s[FindByEmail(s, email).value.value], c)))
    ensures email != "" && FindByEmail(s, email).Returned? && FindByEmail(s, email).value.Some? ==>
              var u := s[FindByEmail(s, email).value.value];
              && (!u.emailConfirmed ==> r.response == BadRequest(ConfirmBeforeRecovery))
              && (u.emailConfirmed ==> r.response == Ok(RecoverySent) || r.response == BadRequest(SendFailed))
  {
    if email == "" then Outcome(BadRequest(InvalidEmail), s)
    else
      match FindByEmail(s, email)
      case Threw => Outcome(ServerError, s)
      case Returned(None) => Outcome(Unauthorized(NotRegisterd), s)
      case Returned(Some(i)) =>
        if !s[i].emailConfirmed then Outcome(BadRequest(ConfirmBeforeRecovery), s)
        else if ReturnedTrue(c.send(RecoveryMail(s[i], c))) then Outcome(Ok(RecoverySent), s)
        else Outcome(BadRequest(SendFailed), s)
  }

  /** `ResetPassword`. The new password lives in the identity store, so the
      user table is left as it was. */
  function ResetPassword(s: Store, c: Collaborators, email: string, token: string, newPassword: string): (r: Outcome)
    ensures r.store == s
    ensures FindByEmail(s, email) == Threw ==> r.response == ServerError
    ensures FindByEmail(s, email) == Returned(None) ==> r.response == Unauthorized(NotRegisterd)
    ensures FindByEmail(s, email).Returned? && FindByEmail(s, email).value.Some? ==>
              var u := s[FindByEmail(s, email).value.value];
              && (!u.emailConfirmed ==> r.response == BadRequest(ConfirmBeforeReset))
              && (u.emailConfirmed ==>
                    (r.response == BadRequest(InvalidToken) <==>
                       || TokenCodec.DecodeToken(token).None?
                       || !ReturnedTrue(c.resetPassword(u, TokenCodec.DecodeToken(token).value, newPassword))))
              && (u.emailConfirmed ==> r.response == Ok(PasswordReset) || r.response == BadRequest(InvalidToken))
    ensures r.response.Ok? ==>
              && r.response.body == PasswordReset
              && FindByEmail(s, email).Returned? && FindByEmail(s, email).value.Some?
              && var u := s[FindByEmail(s, email).value.value];
              && u.emailConfirmed
              && TokenCodec.DecodeToken(token).Some?
              && ReturnedTrue(c.resetPassword(u, TokenCodec.DecodeToken(token).value, newPassword))
  {
    match FindByEmail(s, email)
    case Threw => Outcome(ServerError, s)
    case Returned(None) => Outcome(Unauthorized(NotRegisterd), s)
    case Returned(Some(i)) =>
      if !s[i].emailConfirmed then Outcome(BadRequest(ConfirmBeforeReset), s)
      else
        match TokenCodec.DecodeToken(token)
        case None => Outcome(BadRequest(InvalidToken), s)
        case Some(decoded) =>
          if ReturnedTrue(c.resetPassword(s[i], decoded, newPassword)) then Outcome(Ok(PasswordReset), s)
          else Outcome(BadRequest(InvalidToken), s)
  }
}

=== FILE: account_lifecycle.dfy ===
/** Every action as one request type, and what any sequence of requests
    does to the user table. */
module AccountLifecycle {
  import opened Text
  import opened UserStore
  import opened Account

  datatype Request =
    | LoginRequest(userName: string, password: string)
    | LoginWithThirdPartyRequest(provider: string, accessToken: string, userId: string)
    | RegisterRequest(firstName: string, lastName: string, email: string, password: string)
    | RegisterWithThirdPartyRequest(provider: string, accessToken: string, userId: string,
                                    firstName: string, lastName: string)
    | ConfirmEmailRequest(email: string, token: string)
    | ResendEmailConfirmationLinkRequest(email: string)
    | ForgotUsernameOrPasswordRequest(email: string)
    | ResetPasswordRequest(email: string, token: string, newPassword: string)

  /** A request and the time (Unix seconds) it arrives. */
  datatype Step = Step(now: int, request: Request)

  /** Routes a request to its action. */
  function Handle(s: Store, c: Collaborators, cfg: Config, step: Step): Outcome {
    match step.request
    case LoginRequest(n, p) => Login(s, c, n, p)
    case LoginWithThirdPartyRequest(pr, t, id) => LoginWithThirdParty(s, c, cfg, step.now, pr, t, id)
    case RegisterRequest(f, l, e, p) => Register(s, c, f, l, e, p)
    case RegisterWithThirdPartyRequest(pr, t, id, f, l) => RegisterWithThirdParty(s, c, cfg, step.now, pr, t, id, f, l)
    case ConfirmEmailRequest(e, t) => ConfirmEmail(s, c, e, t)
    case ResendEmailConfirmationLinkRequest(e) => ResendEmailConfirmationLink(s, c, e)
    case ForgotUsernameOrPasswordRequest(e) => ForgotUsernameOrPassword(s, c, e)
    case ResetPasswordRequest(e, t, p) => ResetPassword(s, c, e, t, p)
  }

  /** The table after serving the requests one after another. */
  function Run(s: Store, c: Collaborators, cfg: Config, steps: seq<Step>): (t: Store)
    decreases |steps|
  {
    if |steps| == 0 then s
    else Run(Handle(s, c, cfg, steps[0]).store, c, cfg, steps[1..])
  }

  /** How the table may change: rows are only appended, and an existing row
      changes at most by becoming confirmed. */
  ghost predicate Evolves(s: Store, t: Store) {
    && |s| <= |t|
    && forall i :: 0 <= i < |s| ==> t[i] == s[i] || t[i] == s[i].(emailConfirmed := true)
  }

  lemma EvolvesTransitive(s: Store, t: Store, u: Store)
    requires Evolves(s, t) && Evolves(t, u)
    ensures Evolves(s, u)
  {
  }

  /** Local registration adds at most the one new local row, and the table
      stays valid. */
  lemma RegisterPreservesValid(s: Store, c: Collaborators, first: string, last: string,
                               email: string, password: string)
    requires Valid(s)
    ensures var t := Register(s, c, first, last, email, password).store;
            t == s || t == s + [LocalUser(first, last, email)]
    ensures Valid(Register(s, c, first, last, email, password).store)
    ensures Evolves(s, Register(s, c, first, last, email, password).store)
  {
    var t := Register(s, c, first, last, email, password).store;
    if t != s {
      ToLowerIsLowerCase(email);
      assert t == s + [LocalUser(first, last, email)];
      assert forall i :: 0 <= i < |s| ==> t[i] == s[i];
    }
  }

  /** Federated registration adds at most the one new federated row, and
      the table stays valid. */
  lemma RegisterWithThirdPartyPreservesValid(s: Store, c: Collaborators, cfg: Config, now: int,
                                             provider: string, accessToken: string, userId: string,
                                             first: string, last: string)
    requires Valid(s)
    ensures var t := RegisterWithThirdParty(s, c, cfg, now, provider, accessToken, userId, first, last).store;
            t == s || t == s + [FederatedUser(userId, provider, first, last)]
    ensures Valid(RegisterWithThirdParty(s, c, cfg, now, provider, accessToken, userId, first, last).store)
    ensures Evolves(s, RegisterWithThirdParty(s, c, cfg, now, provider, accessToken, userId, first, last).store)
  {
    var t := RegisterWithThirdParty(s, c, cfg, now, provider, accessToken, userId, first, last).store;
    if t != s {
      var u := FederatedUser(userId, provider, first, last);
      assert t == s + [u];
      assert WellShaped(u);
    }
  }

  /** Confirmation marks at most one row, one that was unconfirmed, and the
      table stays valid. */
  lemma ConfirmEmailKeepsInvariant(s: Store, c: Collaborators, email: string, token: string)
    requires Valid(s)
    ensures var t := ConfirmEmail(s, c, email, token).store;
            t == s || exists i :: 0 <= i < |s| && !s[i].emailConfirmed && t == MarkConfirmed(s, i)
    ensures Valid(ConfirmEmail(s, c, email, token).store)
    ensures Evolves(s, ConfirmEmail(s, c, email, token).store)
  {
  }

  /** Every request keeps the table valid and only lets it evolve. */
  lemma HandleKeepsInvariant(s: Store, c: Collaborators, cfg: Config, step: Step)
    requires Valid(s)
    ensures Valid(Handle(s, c, cfg, step).store)
    ensures Evolves(s, Handle(s, c, cfg, step).store)
  {
    match step.request
    case RegisterRequest(f, l, e, p) =>
      RegisterPreservesValid(s, c, f, l, e, p);
    case RegisterWithThirdPartyRequest(pr, t, id, f, l) =>
      RegisterWithThirdPartyPreservesValid(s, c, cfg, step.now, pr, t, id, f, l);
    case ConfirmEmailRequest(e, t) =>
      ConfirmEmailKeepsInvariant(s, c, e, t);
    case _ =>
      ReadOnlyRequests(s, c, cfg, step);
  }

  /** Logins, the two mail requests and password reset leave the table as
      it was. */
  lemma ReadOnlyRequests(s: Store, c: Collaborators, cfg: Config, step: Step)
    requires !step.request.RegisterRequest? && !step.request.RegisterWithThirdPartyRequest?
    requires !step.request.ConfirmEmailRequest?
    ensures Handle(s, c, cfg, step).store == s
  {
    match step.request
    case LoginRequest(n, p) =>
    case LoginWithThirdPartyRequest(pr, t, id) =>
    case ResendEmailConfirmationLinkRequest(e) =>
    case ForgotUsernameOrPasswordRequest(e) =>
    case ResetPasswordRequest(e, t, p) =>
  }

  /** From the empty table, any sequence of requests leaves a valid table:
      e-mails stay lower case and distinct, so `FindByEmailAsync` never
      meets two rows, and no row is removed or unconfirmed. */
  lemma {:induction false} RunKeepsInvariant(s: Store, c: Collaborators, cfg: Config, steps: seq<Step>)
    requires Valid(s)
    ensures Valid(Run(s, c, cfg, steps))
    ensures Evolves(s, Run(s, c, cfg, steps))
    decreases |steps|
  {
    if |steps| > 0 {
      var t := Handle(s, c, cfg, steps[0]).store;
      HandleKeepsInvariant(s, c, cfg, steps[0]);
      RunKeepsInvariant(t, c, cfg, steps[1..]);
      EvolvesTransitive(s, t, Run(t, c, cfg, steps[1..]));
    }
  }

  /** In any table the actions can reach, e-mail lookups never throw. */
  lemma ReachableLookupsNeverThrow(c: Collaborators, cfg: Config, steps: seq<Step>, email: string)
    ensures FindByEmail(Run([], c, cfg, steps), email).Returned?
  {
    EmptyValid();
    RunKeepsInvariant([], c, cfg, steps);
    FindByEmailNeverThrows(Run([], c, cfg, steps), email);
  }
}

=== FILE: account_properties.dfy ===
/** Properties of the account actions that relate several calls: which
    collaborators a guard makes irrelevant, and that the tokens the
    controller mails are the tokens it later hands back to the store. */
module AccountProperties {
  import opened Common
  import opened Text
  import opened UserStore
  import opened Providers
  import opened Account
  import TokenCodec
  import AccountLifecycle

  /** An unconfirmed user is turned away before the password is looked at:
      neither the password nor the store's password check changes the result. */
  lemma LoginUnconfirmedIgnoresPassword(s: Store, c1: Collaborators, c2: Collaborators,
                                        userName: string, password1: string, password2: string)
    requires FindByName(s, userName).Some? && !s[FindByName(s, userName).value].emailConfirmed
    ensures Login(s, c1, userName, password1) == Login(s, c2, userName, password2)
    ensures Login(s, c1, userName, password1).response == Unauthorized(ConfirmBeforeLogin)
  {
  }

  /** An unknown user name and a wrong password are indistinguishable to
      the caller. */
  lemma LoginUnknownUserLooksLikeWrongPassword(s: Store, c: Collaborators, known: string, unknown: string,
                                               password1: string, password2: string)
    requires FindByName(s, unknown).None?
    requires FindByName(s, known).Some? && s[FindByName(s, known).value].emailConfirmed
    requires !c.checkPassword(s[FindByName(s, known).value], password1)
    ensures Login(s, c, unknown, password2) == Login(s, c, known, password1)
  {
  }

  /** An unknown provider is refused before any verifier, lookup or store
      is consulted: the result depends on nothing else. */
  lemma UnknownProviderDecidedFirst(s1: Store, s2: Store, c1: Collaborators, c2: Collaborators,
                                    cfg1: Config, cfg2: Config, now1: int, now2: int, provider: string,
                                    token1: string, token2: string, id1: string, id2: string,
                                    first: string, last: string)
    requires ParseProvider(provider).None?
    ensures LoginWithThirdParty(s1, c1, cfg1, now1, provider, token1, id1).response
         == LoginWithThirdParty(s2, c2, cfg2, now2, provider, token2, id2).response
         == BadRequest(InvalidProvider)
    ensures RegisterWithThirdParty(s1, c1, cfg1, now1, provider, token1, id1, first, last).response
         == RegisterWithThirdParty(s2, c2, cfg2, now2, provider, token2, id2, first, last).response
         == BadRequest(InvalidProvider)
  {
  }

  /** A verifier that says no and a verifier that throws are handled alike,
      in both third-party actions, and neither gets past the guard. */
  lemma VerifierThrowingIsVerifierRefusing(s: Store, c1: Collaborators, c2: Collaborators, cfg: Config, now: int,
                                           provider: string, accessToken: string, userId: string,
                                           first: string, last: string)
    requires ParseProvider(provider).Some?
    requires Verify(ParseProvider(provider).value, c1, cfg, now, accessToken, userId) == Returned(false)
    requires Verify(ParseProvider(provider).value, c2, cfg, now, accessToken, userId) == Threw
    ensures LoginWithThirdParty(s, c1, cfg, now, provider, accessToken, userId)
         == LoginWithThirdParty(s, c2, cfg, now, provider, accessToken, userId)
    ensures RegisterWithThirdParty(s, c1, cfg, now, provider, accessToken, userId, first, last)
         == RegisterWithThirdParty(s, c2, cfg, now, provider, accessToken, userId, first, last)
    ensures LoginWithThirdParty(s, c2, cfg, now, provider, accessToken, userId)
         == Outcome(Unauthorized(UnableWith("login", ParseProvider(provider).value)), s)
    ensures RegisterWithThirdParty(s, c2, cfg, now, provider, accessToken, userId, first, last)
         == Outcome(Unauthorized(UnableWith("register", ParseProvider(provider).value)), s)
  {
  }

  /** A Google token naming another issuer never logs anyone in. */
  lemma ForeignIssuerRefused(s: Store, c: Collaborators, cfg: Config, now: int,
                             accessToken: string, userId: string, p: GooglePayload)
    requires c.googleValidate(accessToken) == Returned(p)
    requires p.issuer == Some("evil.com")
    ensures LoginWithThirdParty(s, c, cfg, now, GoogleName, accessToken, userId)
         == Outcome(Unauthorized(UnableWith("login", Google)), s)
  {
    assert !GoogleAccepts(c.googleValidate(accessToken), cfg.googleClientId, userId, now);
  }

  /** Registering again with the same e-mail, in any letter case, is
      refused once the first registration has created the account, whether
      or not its confirmation mail went out. */
  lemma RegisterSameEmailTwiceRefused(s: Store, c: Collaborators, c': Collaborators,
                                      first: string, last: string, email: string, password: string,
                                      first': string, last': string, email': string, password': string)
    requires ToLower(email') == ToLower(email)
    requires Register(s, c, first, last, email, password).store != s
    ensures var t := Register(s, c, first, last, email, password).store;
            Register(t, c', first', last', email', password') == Outcome(BadRequest(EmailInUse(email')), t)
  {
    var t := Register(s, c, first, last, email, password).store;
    assert t[|s|].email == Some(ToLower(email'));
  }

  /** An already confirmed e-mail is refused before the token is read:
      neither the token nor the store's token check changes the result. */
  lemma ConfirmedEmailSkipsTokenCheck(s: Store, c1: Collaborators, c2: Collaborators, email: string,
                                      token1: string, token2: string)
    requires FindByEmail(s, email).Returned? && FindByEmail(s, email).value.Some?
    requires s[FindByEmail(s, email).value.value].emailConfirmed
    ensures ConfirmEmail(s, c1, email, token1) == ConfirmEmail(s, c2, email, token2)
    ensures ConfirmEmail(s, c1, email, token1) == Outcome(BadRequest(AlreadyConfirmed), s)
  {
  }

  /** A store that accepts exactly the confirmation token it issued for a
      user. */
  ghost predicate ChecksConfirmationTokens(c: Collaborators) {
    forall u, t :: c.confirmEmail(u, t) == Returned(t == c.confirmationToken(u))
  }

  /** A store that accepts exactly the reset token it issued for a user. */
  ghost predicate ChecksResetTokens(c: Collaborators) {
    forall u, t, p :: c.resetPassword(u, t, p) == Returned(t == c.resetToken(u))
  }

  /** The link mailed on registration confirms the account: the token the
      store issued survives the UTF-8 and base64url round trip, so the
      store's confirm step sees exactly that token. */
  lemma MailedConfirmationLinkConfirms(s: Store, c: Collaborators, first: string, last: string,
                                       email: string, password: string, typed: string)
    requires Valid(s)
    requires ChecksConfirmationTokens(c)
    requires Register(s, c, first, last, email, password).store != s
    requires Normalize(typed) == Normalize(email)
    ensures var t := Register(s, c, first, last, email, password).store;
            var mail := ConfirmationMail(t[|s|], c);
            ConfirmEmail(t, c, typed, mail.token) == Outcome(Ok(EmailConfirmed), MarkConfirmed(t, |s|))
  {
    var t := Register(s, c, first, last, email, password).store;
    var u := t[|s|];
    AccountLifecycle.RegisterPreservesValid(s, c, first, last, email, password);
    NormalizeIgnoresLowering(email);
    assert HasEmail(u, typed);
    FindByEmailFindsMatch(t, typed, |s|);
    var mail := ConfirmationMail(u, c);
    assert TokenCodec.DecodeToken(mail.token) == Some(c.confirmationToken(u));
    assert c.confirmEmail(u, c.confirmationToken(u)) == Returned(true);
  }

  /** The link mailed by `ForgotUsernameOrPassword` resets the password of
      the account it was sent for. */
  lemma MailedResetLinkResets(s: Store, c: Collaborators, email: string, newPassword: string)
    requires ChecksResetTokens(c)
    requires ForgotUsernameOrPassword(s, c, email).response.Ok?
    ensures var u := s[FindByEmail(s, email).value.value];
            ResetPassword(s, c, email, RecoveryMail(u, c).token, newPassword) == Outcome(Ok(PasswordReset), s)
  {
    var u := s[FindByEmail(s, email).value.value];
    var mail := RecoveryMail(u, c);
    assert TokenCodec.DecodeToken(mail.token) == Some(c.resetToken(u));
    assert c.resetPassword(u, c.resetToken(u), newPassword) == Returned(true);
  }
}

=== FILE: base64url.dfy ===
/** Base64 with the URL- and filename-safe alphabet and no padding
    (section 5 of RFC 4648), the form `WebEncoders.Base64UrlEncode` writes
    and `WebEncoders.Base64UrlDecode` reads. */
module Base64Url {
  import opened Common

  /** The symbol for a 6-bit value: A-Z, a-z, 0-9, '-', '_'. */
  function Symbol(v: int): (c: char)
    requires 0 <= v < 64
    ensures IsSymbol(c)
  {
    if v < 26 then ('A' as int + v) as char
    else if v < 52 then ('a' as int + (v - 26)) as char
    else if v < 62 then ('0' as int + (v - 52)) as char
    else if v == 62 then '-'
    else '_'
  }

  predicate IsSymbol(c: char) {
    'A' <= c <= 'Z' || 'a' <= c <= 'z' || '0' <= c <= '9' || c == '-' || c == '_'
  }

  /** The 6-bit value of a symbol; the inverse of `Symbol`. */
  function Value(c: char): (v: int)
    requires IsSymbol(c)
    ensures 0 <= v < 64
    ensures Symbol(v) == c
  {
    if 'A' <= c <= 'Z' then c as int - 'A' as int
    else if 'a' <= c <= 'z' then c as int - 'a' as int + 26
    else if '0' <= c <= '9' then c as int - '0' as int + 52
    else if c == '-' then 62
    else 63
  }

  lemma ValueOfSymbol(v: int)
    requires 0 <= v < 64
    ensures Value(Symbol(v)) == v
  {
  }

  /** Length of the unpadded encoding of `n` bytes: ceil(4n / 3). */
  function EncodedLength(n: nat): nat {
    (4 * n + 2) / 3
  }

  /** Strings the decoder accepts: every character in the alphabet and a
      length that is not one more than a multiple of four. */
  predicate WellFormed(s: string) {
    && |s| % 4 != 1
    && forall i :: 0 <= i < |s| ==> IsSymbol(s[i])
  }

  function EncodeBlock(b0: byte, b1: byte, b2: byte): seq<char> {
    [Symbol(b0 / 4), Symbol((b0 % 4) * 16 + b1 / 16), Symbol((b1 % 16) * 4 + b2 / 64), Symbol(b2 % 64)]
  }

  /** Encodes three bytes at a time; a final one or two bytes become two or
      three symbols, with the unused low bits zero and no '=' padding. */
  function Encode(b: seq<byte>): (s: string)
    ensures |s| % 4 != 1
    ensures forall i :: 0 <= i < |s| ==> IsSymbol(s[i])
    decreases |b|
  {
    if |b| == 0 then []
    else if |b| == 1 then [Symbol(b[0] / 4), Symbol((b[0] % 4) * 16)]
    else if |b| == 2 then [Symbol(b[0] / 4), Symbol((b[0] % 4) * 16 + b[1] / 16), Symbol((b[1] % 16) * 4)]
    else EncodeBlock(b[0], b[1], b[2]) + Encode(b[3..])
  }

  function Byte0(v0: int, v1: int): byte
    requires 0 <= v0 < 64 && 0 <= v1 < 64
  {
    v0 * 4 + v1 / 16
  }

  function Byte1(v1: int, v2: int): byte
    requires 0 <= v1 < 64 && 0 <= v2 < 64
  {
    (v1 % 16) * 16 + v2 / 4
  }

  function Byte2(v2: int, v3: int): byte
    requires 0 <= v2 < 64 && 0 <= v3 < 64
  {
    (v2 % 4) * 64 + v3
  }

  /** Decodes four symbols at a time; a final two or three symbols give one
      or two bytes (their unused low bits are ignored). A length of the form
      4k+1 or a character outside the alphabet is a format error. */
  function Decode(s: string): (r: Option<seq<byte>>)
    ensures r.Some? ==> 4 * |r.value| <= 3 * |s| < 4 * |r.value| + 4
    decreases |s|
  {
    if |s| == 0 then Some([])
    else if |s| == 1 || !IsSymbol(s[0]) || !IsSymbol(s[1]) then None
    else if |s| == 2 then Some([Byte0(Value(s[0]), Value(s[1]))])
    else if !IsSymbol(s[2]) then None
    else if |s| == 3 then
      Some([Byte0(Value(s[0]), Value(s[1])), Byte1(Value(s[1]), Value(s[2]))])
    else if !IsSymbol(s[3]) then None
    else
      match Decode(s[4..])
      case None => None
      case Some(rest) =>
        Some([Byte0(Value(s[0]), Value(s[1])), Byte1(Value(s[1]), Value(s[2])), Byte2(Value(s[2]), Value(s[3]))] + rest)
  }

  lemma BlockRoundTrip(b0: byte, b1: byte, b2: byte)
    ensures var v0, v1, v2, v3 := b0 / 4, (b0 % 4) * 16 + b1 / 16, (b1 % 16) * 4 + b2 / 64, b2 % 64;
            && Byte0(v0, v1) == b0 && Byte1(v1, v2) == b1 && Byte2(v2, v3) == b2
  {
    var v1, v2 := (b0 % 4) * 16 + b1 / 16, (b1 % 16) * 4 + b2 / 64;
    assert v1 / 16 == b0 % 4 && v1 % 16 == b1 / 16;
    assert v2 / 4 == b1 % 16 && v2 % 4 == b2 / 64;
  }

  lemma TailRoundTrip1(b0: byte)
    ensures Decode(Encode([b0])) == Some([b0])
  {
    var v0, v1 := b0 / 4, (b0 % 4) * 16;
    ValueOfSymbol(v0);
    ValueOfSymbol(v1);
    assert Byte0(v0, v1) == b0;
  }

  lemma TailRoundTrip2(b0: byte, b1: byte)
    ensures Decode(Encode([b0, b1])) == Some([b0, b1])
  {
    var v0, v1, v2 := b0 / 4, (b0 % 4) * 16 + b1 / 16, (b1 % 16) * 4;
    assert Encode([b0, b1]) == [Symbol(v0), Symbol(v1), Symbol(v2)];
    ValueOfSymbol(v0);
    ValueOfSymbol(v1);
    ValueOfSymbol(v2);
    BlockRoundTrip(b0, b1, 0);
    assert Decode(Encode([b0, b1])) == Some([Byte0(v0, v1), Byte1(v1, v2)]);
  }

  /** Decoding a full block in front of an encoded rest decodes the block
      and then the rest. */
  lemma BlockStep(b0: byte, b1: byte, b2: byte, rest: string)
    ensures Decode(EncodeBlock(b0, b1, b2) + rest) ==
            match Decode(rest)
            case None => None
            case Some(tail) => Some([b0, b1, b2] + tail)
  {
    var s := EncodeBlock(b0, b1, b2) + rest;
    ValueOfSymbol(b0 / 4);
    ValueOfSymbol((b0 % 4) * 16 + b1 / 16);
    ValueOfSymbol((b1 % 16) * 4 + b2 / 64);
    ValueOfSymbol(b2 % 64);
    BlockRoundTrip(b0, b1, b2);
    assert s[4..] == rest;
  }

  lemma ShortRoundTrip(b: seq<byte>)
    requires |b| < 3
    ensures Decode(Encode(b)) == Some(b)
  {
    if |b| == 1 {
      TailRoundTrip1(b[0]);
      assert b == [b[0]];
    } else if |b| == 2 {
      TailRoundTrip2(b[0], b[1]);
      assert b == [b[0], b[1]];
    }
  }

  /** The encoding has ceil(4n / 3) symbols and is well formed. */
  lemma {:induction false} EncodeLength(b: seq<byte>)
    ensures |Encode(b)| == EncodedLength(|b|)
    ensures WellFormed(Encode(b))
    decreases |b|
  {
    if |b| >= 3 {
      EncodeLength(b[3..]);
      assert |Encode(b)| == 4 + |Encode(b[3..])|;
    }
  }

  /** A block in front of an encoding that decodes to `tail` decodes to the
      block's bytes followed by `tail`. */
  lemma BlockThen(b0: byte, b1: byte, b2: byte, rest: string, tail: seq<byte>)
    requires Decode(rest) == Some(tail)
    ensures Decode(EncodeBlock(b0, b1, b2) + rest) == Some([b0, b1, b2] + tail)
  {
    BlockStep(b0, b1, b2, rest);
  }

  /** A round trip of the bytes after the first block extends to the
      whole sequence. */
  lemma LongRoundTrip(b: seq<byte>)
    requires |b| >= 3 && Decode(Encode(b[3..])) == Some(b[3..])
    ensures Decode(Encode(b)) == Some(b)
  {
    FirstBlock(b);
    assert Encode(b) == EncodeBlock(b[0], b[1], b[2]) + Encode(b[3..]);
    BlockThen(b[0], b[1], b[2], Encode(b[3..]), b[3..]);
  }

  /** Three or more bytes are their first block and the rest. */
  lemma FirstBlock(b: seq<byte>)
    requires |b| >= 3
    ensures b == [b[0], b[1], b[2]] + b[3..]
  {
    var c := [b[0], b[1], b[2]] + b[3..];
    assert |c| == |b|;
    forall i | 0 <= i < |b|
      ensures c[i] == b[i]
    {
      if i >= 3 { assert c[i] == b[3..][i - 3]; }
    }
  }

  /** Decoding an encoding gives back the original bytes. */
  lemma {:induction false} RoundTrip(b: seq<byte>)
    ensures Decode(Encode(b)) == Some(b)
    decreases |b|
  {
    if |b| < 3 {
      ShortRoundTrip(b);
    } else {
      RoundTrip(b[3..]);
      LongRoundTrip(b);
    }
  }

  /** Well-formedness of a string that starts with four symbols is that of
      the rest. */
  lemma WellFormedStep(s: string)
    requires |s| >= 4 && IsSymbol(s[0]) && IsSymbol(s[1]) && IsSymbol(s[2]) && IsSymbol(s[3])
    ensures WellFormed(s) <==> WellFormed(s[4..])
  {
    var t := s[4..];
    assert |t| % 4 == |s| % 4;
    if WellFormed(t) {
      forall i | 0 <= i < |s| ensures IsSymbol(s[i]) {
        if i >= 4 { assert s[i] == t[i - 4]; }
      }
    }
    if WellFormed(s) {
      forall i | 0 <= i < |t| ensures IsSymbol(t[i]) {
        assert t[i] == s[i + 4];
      }
    }
  }

  lemma ShortDecodeIff(s: string)
    requires |s| < 4
    ensures Decode(s).Some? <==> WellFormed(s)
  {
    if |s| == 2 {
      assert WellFormed(s) <==> IsSymbol(s[0]) && IsSymbol(s[1]);
    } else if |s| == 3 {
      assert WellFormed(s) <==> IsSymbol(s[0]) && IsSymbol(s[1]) && IsSymbol(s[2]);
    }
  }

  /** The decoder fails exactly on the strings that are not well formed:
      a malformed token is always reported, never silently decoded. */
  lemma {:induction false} DecodeSucceedsIffWellFormed(s: string)
    ensures Decode(s).Some? <==> WellFormed(s)
    decreases |s|
  {
    if |s| < 4 {
      ShortDecodeIff(s);
    } else if IsSymbol(s[0]) && IsSymbol(s[1]) && IsSymbol(s[2]) && IsSymbol(s[3]) {
      DecodeSucceedsIffWellFormed(s[4..]);
      WellFormedStep(s);
    } else {
      assert !WellFormed(s);
    }
  }
}

=== FILE: common.dfy ===
/** Small shared vocabulary: bytes, optional values and calls into
    collaborators that may throw. */
module Common {

  /** A .NET `byte`. */
  type byte = x: int | 0 <= x < 256

  /** A value that may be absent (a C# `null` or a missing JSON field). */
  datatype Option<+T> = None | Some(value: T)

  /** The outcome of a call into a collaborator that may raise an exception:
      either the value it returned or the fact that it threw. */
  datatype Call<+T> = Returned(value: T) | Threw
}

=== FILE: providers.dfy ===
/** The two external identity providers and the checks the account
    controller applies to what each one returns (`FacebookValidatedAsync`,
    `GoogleValidatedAsync`). The network call to Facebook's `debug_token`
    endpoint and Google's signature check are collaborators: their results
    arrive here as values, with `Threw` for an exception. */
module Providers {
  import opened Common

  datatype Provider = Facebook | Google

  /** The provider names the client sends (`SD.Facebook`, `SD.Google`). */
  const FacebookName: string := "facebook"
  const GoogleName: string := "google"

  function Name(p: Provider): string {
    match p
    case Facebook => FacebookName
    case Google => GoogleName
  }

  /** The controller's `model.Provider.Equals(...)` dispatch: exact,
      case-sensitive comparison against the two names. */
  function ParseProvider(name: string): (r: Option<Provider>)
    ensures r.Some? <==> name == FacebookName || name == GoogleName
    ensures r.Some? ==> Name(r.value) == name
  {
    if name == FacebookName then Some(Facebook)
    else if name == GoogleName then Some(Google)
    else None
  }

  /** The `data` object of a `debug_token` response. A missing `user_id`
      is `None`. */
  datatype FacebookData = FacebookData(isValid: bool, userId: Option<string>)

  /** A deserialised `debug_token` response; a missing `data` is `None`. */
  datatype FacebookResult = FacebookResult(data: Option<FacebookData>)

  /** When Facebook vouches for `userId`: a non-null response whose data
      marks the token valid and names exactly that user. */
  predicate FacebookAccepts(response: Call<Option<FacebookResult>>, userId: string) {
    && response.Returned?
    && response.value.Some?
    && response.value.value.data.Some?
    && response.value.value.data.value.isValid
    && response.value.value.data.value.userId == Some(userId)
  }

  /** `FacebookValidatedAsync`. A failed request, or dereferencing a missing
      `data` or `user_id`, throws; a null response, an invalid token or a
      different user gives false. */
  function FacebookValidated(response: Call<Option<FacebookResult>>, userId: string): (r: Call<bool>)
    ensures r == Returned(true) <==> FacebookAccepts(response, userId)
    ensures r == Threw ==> !FacebookAccepts(response, userId)
  {
    match response
    case Threw => Threw
    case Returned(None) => Returned(false)
    case Returned(Some(result)) =>
      match result.data
      case None => Threw
      case Some(data) =>
        if !data.isValid then Returned(false)
        else match data.userId
          case None => Threw
          case Some(id) => Returned(id == userId)
  }

  /** The claims of a Google ID token once its signature has been checked.
      A claim the token lacks is `None`. */
  datatype GooglePayload = GooglePayload(
    audience: Option<string>,
    issuer: Option<string>,
    expirationTimeSeconds: Option<int>,
    subject: Option<string>)

  const GoogleIssuer: string := "accounts.google.com"
  const GoogleHttpsIssuer: string := "https://accounts.google.com"

  /** The Unix seconds `DateTimeOffset.FromUnixTimeSeconds` accepts
      (0001-01-01 to 9999-12-31); outside them it throws. */
  const MinUnixSeconds: int := -62135596800
  const MaxUnixSeconds: int := 253402300799

  /** When the controller trusts a Google token for `userId` at time `now`
      (Unix seconds): the signature check returned claims, the audience is
      this application's client id, the issuer is one of Google's two
      issuer strings, an expiry is present and not before `now`, and the
      subject is exactly `userId`. */
  predicate GoogleAccepts(payload: Call<GooglePayload>, clientId: string, userId: string, now: int) {
    && payload.Returned?
    && payload.value.audience == Some(clientId)
    && payload.value.issuer.Some?
    && (payload.value.issuer.value == GoogleIssuer || payload.value.issuer.value == GoogleHttpsIssuer)
    && payload.value.expirationTimeSeconds.Some?
    && MinUnixSeconds <= payload.value.expirationTimeSeconds.value <= MaxUnixSeconds
    && now <= payload.value.expirationTimeSeconds.value
    && payload.value.subject == Some(userId)
  }

  /** `GoogleValidatedAsync`: the checks in the controller's order, each
      failing check giving false. A failed signature check, a missing
      audience, issuer or subject (a null dereference) or an expiry the
      date conversion cannot represent throws. */
  function GoogleValidated(payload: Call<GooglePayload>, clientId: string, userId: string, now: int): (r: Call<bool>)
    ensures r == Returned(true) <==> GoogleAccepts(payload, clientId, userId, now)
  {
    match payload
    case Threw => Threw
    case Returned(p) =>
      if p.audience.None? then Threw
      else if p.audience.value != clientId then Returned(false)
      else if p.issuer.None? then Threw
      else if p.issuer.value != GoogleIssuer && p.issuer.value != GoogleHttpsIssuer then Returned(false)
      else if p.expirationTimeSeconds.None? then Returned(false)
      else if !(MinUnixSeconds <= p.expirationTimeSeconds.value <= MaxUnixSeconds) then Threw
      else if now > p.expirationTimeSeconds.value then Returned(false)
      else if p.subject.None? then Threw
      else Returned(p.subject.value == userId)
  }

  /** Each of the five checks on its own is enough to reject a token. */
  lemma GoogleRejectsOnAnySingleFailure(p: GooglePayload, clientId: string, userId: string, now: int)
    requires p.audience != Some(clientId)
          || p.issuer !in {Some(GoogleIssuer), Some(GoogleHttpsIssuer)}
          || p.expirationTimeSeconds.None?
          || (p.expirationTimeSeconds.Some? && now > p.expirationTimeSeconds.value)
          || p.subject != Some(userId)
    ensures GoogleValidated(Returned(p), clientId, userId, now) != Returned(true)
  {
  }

  /** A token that expires exactly now is still accepted. */
  lemma GoogleAcceptsAtExpiry(p: GooglePayload, clientId: string, userId: string)
    requires p.audience == Some(clientId) && p.issuer == Some(GoogleHttpsIssuer)
    requires p.subject == Some(userId)
    requires p.expirationTimeSeconds.Some?
    requires MinUnixSeconds <= p.expirationTimeSeconds.value <= MaxUnixSeconds
    ensures GoogleValidated(Returned(p), clientId, userId, p.expirationTimeSeconds.value) == Returned(true)
  {
  }

  /** With every claim present and a representable expiry, the check never
      throws: it answers yes or no. */
  lemma GoogleTotalOnCompleteClaims(p: GooglePayload, clientId: string, userId: string, now: int)
    requires p.audience.Some? && p.issuer.Some? && p.subject.Some?
    requires p.expirationTimeSeconds.Some? ==> MinUnixSeconds <= p.expirationTimeSeconds.value <= MaxUnixSeconds
    ensures GoogleValidated(Returned(p), clientId, userId, now).Returned?
  {
  }
}

=== FILE: register_form.dfy ===
/** The registration page of the client: the validators `initializeForm`
    attaches to its four fields, and what `register()` does with the form
    and with an error from the server. */
module RegisterForm {
  import opened Common

  // ---------------------------------------------------------------------
  // Angular's built-in validators, as they judge a string control value

  /** A JavaScript string's `length`: the number of UTF-16 code units, so a
      character outside the Basic Multilingual Plane counts twice. */
  function Utf16Length(v: string): (n: nat)
    ensures |v| <= n <= 2 * |v|
    ensures n == |v| <==> forall i :: 0 <= i < |v| ==> (v[i] as int) < 0x10000
    decreases |v|
  {
    if |v| == 0 then 0
    else (if (v[0] as int) < 0x10000 then 1 else 2) + Utf16Length(v[1..])
  }

  /** `Validators.required`: the value is not empty. */
  predicate Required(v: string) {
    |v| > 0
  }

  /** `Validators.minLength(n)`: an empty value passes (it is `required`'s
      business); otherwise at least `n` code units. */
  predicate MinLength(n: nat, v: string) {
    |v| == 0 || Utf16Length(v) >= n
  }

  /** `Validators.maxLength(n)`: at most `n` code units. */
  predicate MaxLength(n: nat, v: string) {
    Utf16Length(v) <= n
  }

  // ---------------------------------------------------------------------
  // The e-mail pattern ^\w+@[a-zA-Z_]+?\.[a-zA-Z]{2,3}$

  predicate IsLetter(c: char) {
    'a' <= c <= 'z' || 'A' <= c <= 'Z'
  }

  /** `\w` in a JavaScript regular expression without the `u` flag. */
  predicate IsWordChar(c: char) {
    IsLetter(c) || '0' <= c <= '9' || c == '_'
  }

  /** `[a-zA-Z_]`. */
  predicate IsDomainChar(c: char) {
    IsLetter(c) || c == '_'
  }

  /** The index of the first character at or after `from` that is not in
      the class `p`, or `|s|` if there is none. */
  function Span(s: string, from: nat, p: char -> bool): (k: nat)
    requires from <= |s|
    ensures from <= k <= |s|
    ensures forall i :: from <= i < k ==> p(s[i])
    ensures k < |s| ==> !p(s[k])
    decreases |s| - from
  {
    if from == |s| || !p(s[from]) then from else Span(s, from + 1, p)
  }

  /** `s` read as the pattern's parts: the word characters before `@` at
      `at`, the domain characters between it and the `.` at `dot`, and two
      or three letters after that. */
  predicate SplitsAsEmail(s: string, at: int, dot: int) {
    && 0 < at && at + 1 < dot && dot + 3 <= |s| <= dot + 4
    && (forall k :: 0 <= k < at ==> IsWordChar(s[k]))
    && s[at] == '@'
    && (forall k :: at < k < dot ==> IsDomainChar(s[k]))
    && s[dot] == '.'
    && (forall k :: dot < k < |s| ==> IsLetter(s[k]))
  }

  /** The language of the pattern. The lazy `+?` does not change which
      strings match, only how. */
  ghost predicate InEmailLanguage(s: string) {
    exists at, dot :: SplitsAsEmail(s, at, dot)
  }

  /** One left-to-right scan for the pattern: since neither `@` nor `.` is
      a word or domain character, the first character outside each class is
      the only place the next part can start. */
  predicate ScanEmail(s: string) {
    var at := Span(s, 0, IsWordChar);
    && 0 < at < |s| && s[at] == '@'
    && var dot := Span(s, at + 1, IsDomainChar);
    && at + 1 < dot < |s| && s[dot] == '.'
    && dot + 3 <= |s| <= dot + 4
    && Span(s, dot + 1, IsLetter) == |s|
  }

  /** What the scan accepts is in the language. */
  lemma ScanSound(s: string)
    requires ScanEmail(s)
    ensures InEmailLanguage(s)
  {
    var at := Span(s, 0, IsWordChar);
    var dot := Span(s, at + 1, IsDomainChar);
    assert SplitsAsEmail(s, at, dot);
  }

  /** Any way of reading `s` as the pattern is the one the scan finds. */
  lemma ScanComplete(s: string, at: int, dot: int)
    requires SplitsAsEmail(s, at, dot)
    ensures ScanEmail(s)
  {
    assert Span(s, 0, IsWordChar) == at;
    assert Span(s, at + 1, IsDomainChar) == dot;
  }

  /** The recogniser for `^\w+@[a-zA-Z_]+?\.[a-zA-Z]{2,3}$`. */
  function MatchesEmailPattern(s: string): (r: bool)
    ensures r <==> InEmailLanguage(s)
  {
    if ScanEmail(s) then
      ScanSound(s);
      true
    else
      assert !InEmailLanguage(s) by {
        if InEmailLanguage(s) {
          var at, dot :| SplitsAsEmail(s, at, dot);
          ScanComplete(s, at, dot);
        }
      }
      false
  }

  /** A string whose characters all lie in a class holds no character from
      outside it. */
  lemma NoneOutside(t: string, p: char -> bool, c: char)
    requires forall k :: 0 <= k < |t| ==> p(t[k])
    requires !p(c)
    ensures multiset(t)[c] == 0
  {
  }

  /** Counting `@` and `.` across the parts of a split address. */
  lemma CountSeparators(local: string, domain: string, tld: string)
    requires multiset(local)['@'] == 0 && multiset(local)['.'] == 0
    requires multiset(domain)['@'] == 0 && multiset(domain)['.'] == 0
    requires multiset(tld)['@'] == 0 && multiset(tld)['.'] == 0
    ensures var s := local + ['@'] + domain + ['.'] + tld;
            multiset(s)['@'] == 1 && multiset(s)['.'] == 1
  {
    var front := local + ['@'];
    assert multiset(front) == multiset(local) + multiset{'@'};
    var middle := front + domain;
    assert multiset(middle) == multiset(front) + multiset(domain);
    var back := middle + ['.'];
    assert multiset(back) == multiset(middle) + multiset{'.'};
    assert multiset(back + tld) == multiset(back) + multiset(tld);
  }

  /** The separators of a split address: one `@`, one `.`. */
  lemma SplitSeparators(s: string, at: int, dot: int)
    requires SplitsAsEmail(s, at, dot)
    ensures multiset(s)['@'] == 1 && multiset(s)['.'] == 1
  {
    var local, domain, tld := s[..at], s[at + 1..dot], s[dot + 1..];
    assert forall k :: 0 <= k < |local| ==> IsWordChar(local[k]);
    assert forall k :: 0 <= k < |domain| ==> IsDomainChar(domain[k]) by {
      forall k | 0 <= k < |domain| ensures IsDomainChar(domain[k]) { assert domain[k] == s[at + 1 + k]; }
    }
    assert forall k :: 0 <= k < |tld| ==> IsLetter(tld[k]) by {
      forall k | 0 <= k < |tld| ensures IsLetter(tld[k]) { assert tld[k] == s[dot + 1 + k]; }
    }
    NoneOutside(local, IsWordChar, '@');
    NoneOutside(local, IsWordChar, '.');
    NoneOutside(domain, IsDomainChar, '@');
    NoneOutside(domain, IsDomainChar, '.');
    NoneOutside(tld, IsLetter, '@');
    NoneOutside(tld, IsLetter, '.');
    CountSeparators(local, domain, tld);
    assert s == local + ['@'] + domain + ['.'] + tld;
  }

  /** Every accepted address has exactly one `@` and exactly one `.`, and
      ends in two or three letters after that `.`. */
  lemma AcceptedEmailShape(s: string)
    requires MatchesEmailPattern(s)
    ensures multiset(s)['@'] == 1 && multiset(s)['.'] == 1
    ensures 2 <= |s| - 1 - LastDot(s) <= 3
  {
    var at, dot :| SplitsAsEmail(s, at, dot);
    SplitSeparators(s, at, dot);
    LastDotIs(s, dot);
  }

  /** The index of the last `.` in `s`, or -1. */
  function LastDot(s: string): (k: int)
    ensures -1 <= k < |s|
    ensures k >= 0 ==> s[k] == '.'
    ensures forall i :: k < i < |s| ==> s[i] != '.'
    decreases |s|
  {
    if |s| == 0 then -1
    else if s[|s| - 1] == '.' then |s| - 1
    else LastDot(s[..|s| - 1])
  }

  lemma LastDotIs(s: string, dot: int)
    requires 0 <= dot < |s| && s[dot] == '.'
    requires forall i :: dot < i < |s| ==> s[i] != '.'
    ensures LastDot(s) == dot
  {
  }

  // ---------------------------------------------------------------------
  // The form

  datatype RegisterFields = RegisterFields(firstName: string, lastName: string, email: string, password: string)

  /** The first- and last-name validators: required, at least 3, at most
      15 UTF-16 code units. */
  predicate NameValid(v: string)
    ensures NameValid(v) <==> 3 <= Utf16Length(v) <= 15
  {
    Required(v) && MinLength(3, v) && MaxLength(15, v)
  }

  /** Two characters outside the Basic Multilingual Plane are four code
      units, enough for a name; eight are sixteen, too many. */
  lemma AstralNamesCountCodeUnits()
    ensures NameValid("\U{1F600}\U{1F600}")
    ensures !NameValid("\U{1F600}\U{1F600}\U{1F600}\U{1F600}\U{1F600}\U{1F600}\U{1F600}\U{1F600}")
  {
  }

  /** The e-mail validators: required and the pattern (which, like
      `minLength`, lets an empty value through). */
  predicate EmailValid(v: string)
    ensures EmailValid(v) <==> InEmailLanguage(v)
  {
    Required(v) && (|v| == 0 || MatchesEmailPattern(v))
  }

  /** The password validators: required, at least 6, at most 15 UTF-16
      code units. */
  predicate PasswordValid(v: string)
    ensures PasswordValid(v) <==> 6 <= Utf16Length(v) <= 15
  {
    Required(v) && MinLength(6, v) && MaxLength(15, v)
  }

  /** `registerForm.valid`: every control is valid. */
  predicate FormValid(f: RegisterFields) {
    NameValid(f.firstName) && NameValid(f.lastName) && EmailValid(f.email) && PasswordValid(f.password)
  }

  /** The component state `register()` touches. */
  datatype RegisterPage = RegisterPage(submitted: bool, errorMessages: seq<string>)

  /** The body of an error response: a plain message, or an object with an
      `errors` list. */
  datatype ErrorBody = PlainError(text: string) | ErrorList(errors: seq<string>)

  /** `register()`: marks the form submitted, clears the error list, and
      sends the fields to the server exactly when the form is valid. */
  function Register(page: RegisterPage, f: RegisterFields): (r: (RegisterPage, Option<RegisterFields>))
    ensures r.0.submitted && r.0.errorMessages == []
    ensures r.1.Some? <==> 3 <= Utf16Length(f.firstName) <= 15 && 3 <= Utf16Length(f.lastName) <= 15
                           && InEmailLanguage(f.email) && 6 <= Utf16Length(f.password) <= 15
    ensures r.1.Some? ==> r.1.value == f
  {
    var page' := page.(submitted := true, errorMessages := []);
    if FormValid(f) then (page', Some(f)) else (page', None)
  }

  /** The `error` callback of the registration request: the server's
      `errors` list replaces the messages when present; otherwise the body
      is appended to them. */
  function OnRegisterError(page: RegisterPage, body: ErrorBody): (r: RegisterPage)
    ensures r.submitted == page.submitted
    ensures body.ErrorList? ==> r.errorMessages == body.errors
    ensures body.PlainError? ==> r.errorMessages == page.errorMessages + [body.text]
  {
    match body
    case ErrorList(errors) => page.(errorMessages := errors)
    case PlainError(text) => page.(errorMessages := page.errorMessages + [text])
  }

  /** After a submission fails, the page shows exactly the server's list, or
      exactly the one message it sent. */
  lemma SubmissionErrorShown(page: RegisterPage, f: RegisterFields, body: ErrorBody)
    requires Register(page, f).1.Some?
    ensures var shown := OnRegisterError(Register(page, f).0, body).errorMessages;
            shown == (match body case ErrorList(errors) => errors case PlainError(text) => [text])
  {
  }

}

=== FILE: text.dfy ===
/** The string case mappings the account core relies on: `ToLower` for the
    names and e-mail addresses it stores, and the upper-case normalisation
    the identity store applies before it compares user names and e-mails.
    Only the ASCII letters are folded. */
module Text {

  predicate IsUpper(c: char) {
    'A' <= c <= 'Z'
  }

  predicate IsLower(c: char) {
    'a' <= c <= 'z'
  }

  function LowerChar(c: char): (r: char)
    ensures !IsUpper(r)
  {
    if IsUpper(c) then (c as int + 32) as char else c
  }

  function UpperChar(c: char): (r: char)
    ensures !IsLower(r)
  {
    if IsLower(c) then (c as int - 32) as char else c
  }

  /** `string.ToLower()`. */
  function ToLower(s: string): (r: string)
    ensures |r| == |s|
    ensures forall i :: 0 <= i < |s| ==> r[i] == LowerChar(s[i])
  {
    seq(|s|, i requires 0 <= i < |s| => LowerChar(s[i]))
  }

  /** The identity store's lookup normaliser, `Normalize().ToUpperInvariant()`,
      on ASCII terms: the Unicode NFC step is left out (it changes no ASCII
      text) and only the ASCII letters are upper-cased. */
  function Normalize(s: string): (r: string)
    ensures |r| == |s|
    ensures forall i :: 0 <= i < |s| ==> r[i] == UpperChar(s[i])
  {
    seq(|s|, i requires 0 <= i < |s| => UpperChar(s[i]))
  }

  /** A string that `ToLower` leaves unchanged. */
  predicate IsLowerCase(s: string) {
    forall i :: 0 <= i < |s| ==> !IsUpper(s[i])
  }

  /** Lower-casing is idempotent, and what it returns is lower case. */
  lemma ToLowerIsLowerCase(s: string)
    ensures IsLowerCase(ToLower(s))
    ensures ToLower(ToLower(s)) == ToLower(s)
  {
  }

  /** On lower-case strings the normaliser loses nothing: two lower-case
      strings with the same normal form are equal. */
  lemma NormalizeInjectiveOnLowerCase(a: string, b: string)
    requires IsLowerCase(a) && IsLowerCase(b)
    requires Normalize(a) == Normalize(b)
    ensures a == b
  {
    assert |a| == |b|;
    forall i | 0 <= i < |a|
      ensures a[i] == b[i]
    {
      assert UpperChar(a[i]) == Normalize(a)[i] == Normalize(b)[i] == UpperChar(b[i]);
    }
  }

  /** Lower-casing first does not change the normal form. */
  lemma NormalizeIgnoresLowering(s: string)
    ensures Normalize(ToLower(s)) == Normalize(s)
  {
  }
}

=== FILE: token_codec.dfy ===
/** The transport form of the identity store's confirmation and reset
    tokens: the token's UTF-8 bytes written as unpadded base64url for the
    e-mailed link, and read back when the link is used. */
module TokenCodec {
  import opened Common
  import Utf8
  import Base64Url

  /** `WebEncoders.Base64UrlEncode(Encoding.UTF8.GetBytes(token))`. */
  function EncodeToken(token: string): (s: string)
    ensures Base64Url.WellFormed(s)
  {
    Base64Url.Encode(Utf8.Encode(token))
  }

  /** `Encoding.UTF8.GetString(WebEncoders.Base64UrlDecode(s))`; `None`
      stands for the format exception the decoder throws. */
  function DecodeToken(s: string): (r: Option<string>)
    ensures r.None? <==> !Base64Url.WellFormed(s)
  {
    Base64Url.DecodeSucceedsIffWellFormed(s);
    match Base64Url.Decode(s)
    case None => None
    case Some(bytes) => Some(Utf8.Decode(bytes))
  }

  /** The token read back from a link is exactly the token that was put in
      it. */
  lemma RoundTrip(token: string)
    ensures DecodeToken(EncodeToken(token)) == Some(token)
  {
    Utf8.RoundTrip(token);
    Base64Url.RoundTrip(Utf8.Encode(token));
  }
}

=== FILE: user_store.dfy ===
/** The identity store's user table as the account controller sees it: rows
    in insertion order, and the queries the controller makes on them. */
module UserStore {
  import opened Common
  import opened Text

  /** A user row. Local accounts have an e-mail and no provider; accounts
      registered through Facebook or Google have the provider's name and the
      provider's user id as `userName`, and no e-mail. */
  datatype User = User(
    userName: string,
    email: Option<string>,
    emailConfirmed: bool,
    provider: Option<string>,
    firstName: string,
    lastName: string)

  type Store = seq<User>

  /** The first row satisfying `matches`, if any (`FirstOrDefault`). */
  function FirstWhere(s: Store, matches: User -> bool, from: nat): (r: Option<nat>)
    requires from <= |s|
    ensures r.Some? ==> from <= r.value < |s| && matches(s[r.value])
    ensures r.Some? ==> forall j :: from <= j < r.value ==> !matches(s[j])
    ensures r.None? ==> forall j :: from <= j < |s| ==> !matches(s[j])
    decreases |s| - from
  {
    if from == |s| then None
    else if matches(s[from]) then Some(from)
    else FirstWhere(s, matches, from + 1)
  }

  predicate HasUserName(u: User, name: string) {
    Normalize(u.userName) == Normalize(name)
  }

  predicate HasEmail(u: User, email: string) {
    u.email.Some? && Normalize(u.email.value) == Normalize(email)
  }

  /** `UserManager.FindByNameAsync`: the first row whose normalised user name
      equals the normalised argument. */
  function FindByName(s: Store, name: string): (r: Option<nat>)
    ensures r.Some? ==> r.value < |s| && HasUserName(s[r.value], name)
    ensures r.None? <==> forall j :: 0 <= j < |s| ==> !HasUserName(s[j], name)
  {
    FirstWhere(s, u => HasUserName(u, name), 0)
  }

  /** `UserManager.FindByEmailAsync`: the single row whose normalised e-mail
      equals the normalised argument. The store takes `SingleOrDefault`, so
      a second match throws. */
  function FindByEmail(s: Store, email: string): (r: Call<Option<nat>>)
    ensures r == Returned(None) <==> forall j :: 0 <= j < |s| ==> !HasEmail(s[j], email)
    ensures r.Returned? && r.value.Some? ==>
              && r.value.value < |s| && HasEmail(s[r.value.value], email)
              && forall j :: 0 <= j < |s| && j != r.value.value ==> !HasEmail(s[j], email)
    ensures r == Threw <==>
              exists i, j :: 0 <= i < j < |s| && HasEmail(s[i], email) && HasEmail(s[j], email)
  {
    match FirstWhere(s, u => HasEmail(u, email), 0)
    case None => Returned(None)
    case Some(i) =>
      match FirstWhere(s, u => HasEmail(u, email), i + 1)
      case None => Returned(Some(i))
      case Some(j) => Threw
  }

  /** The row of a federated account: `UserName == userId` and
      `Provider == provider`, both compared exactly. */
  function FindByProvider(s: Store, userId: string, provider: string): (r: Option<nat>)
    ensures r.Some? ==> r.value < |s| && s[r.value].userName == userId && s[r.value].provider == Some(provider)
    ensures r.None? <==> forall j :: 0 <= j < |s| ==> !(s[j].userName == userId && s[j].provider == Some(provider))
  {
    FirstWhere(s, (u: User) => u.userName == userId && u.provider == Some(provider), 0)
  }

  /** `CheckEmailExistsAsync`: some row's e-mail equals the lower-cased
      argument exactly. */
  predicate EmailExists(s: Store, email: string) {
    exists i :: 0 <= i < |s| && s[i].email == Some(ToLower(email))
  }

  /** A row as the controller's two registration paths create it. */
  predicate WellShaped(u: User) {
    && (u.email.Some? <==> u.provider.None?)
    && (u.email.Some? ==> IsLowerCase(u.email.value))
  }

  /** The invariant every reachable store keeps: rows are well shaped and no
      two rows share an e-mail. */
  ghost predicate Valid(s: Store) {
    && (forall i :: 0 <= i < |s| ==> WellShaped(s[i]))
    && (forall i, j :: 0 <= i < j < |s| && s[i].email.Some? ==> s[i].email != s[j].email)
  }

  lemma EmptyValid()
    ensures Valid([])
  {
  }

  /** In a valid store e-mail lookups never hit two rows, so
      `FindByEmailAsync` never throws. */
  lemma FindByEmailNeverThrows(s: Store, email: string)
    requires Valid(s)
    ensures FindByEmail(s, email).Returned?
  {
    if FindByEmail(s, email) == Threw {
      var i, j :| 0 <= i < j < |s| && HasEmail(s[i], email) && HasEmail(s[j], email);
      NormalizeInjectiveOnLowerCase(s[i].email.value, s[j].email.value);
      assert false;
    }
  }

  /** In a valid store the exact lower-case comparison of
      `CheckEmailExistsAsync` and the store's normalised `FindByEmailAsync`
      agree: an e-mail is in use exactly when the lookup finds its row. */
  lemma EmailExistsIffFound(s: Store, email: string)
    requires Valid(s)
    ensures EmailExists(s, email) <==> FindByEmail(s, email).Returned? && FindByEmail(s, email).value.Some?
  {
    FindByEmailNeverThrows(s, email);
    NormalizeIgnoresLowering(email);
    ToLowerIsLowerCase(email);
    if EmailExists(s, email) {
      var i :| 0 <= i < |s| && s[i].email == Some(ToLower(email));
      assert HasEmail(s[i], email);
    }
    if FindByEmail(s, email).Returned? && FindByEmail(s, email).value.Some? {
      var i := FindByEmail(s, email).value.value;
      NormalizeInjectiveOnLowerCase(s[i].email.value, ToLower(email));
    }
  }

  /** In a valid store, a row whose e-mail matches the argument is the one
      `FindByEmailAsync` returns for it. */
  lemma FindByEmailFindsMatch(s: Store, email: string, i: nat)
    requires Valid(s) && i < |s| && HasEmail(s[i], email)
    ensures FindByEmail(s, email) == Returned(Some(i))
  {
    FindByEmailNeverThrows(s, email);
  }
}

=== FILE: utf8.dfy ===
/** UTF-8, as `Encoding.UTF8.GetBytes` and `Encoding.UTF8.GetString` apply it
    to the identity store's tokens before and after base64url transport.
    Characters are Unicode scalar values, so every string is encodable. */
module Utf8 {
  import opened Common

  /** A continuation byte 10xxxxxx. */
  predicate IsContinuation(b: byte) {
    0x80 <= b < 0xC0
  }

  /** The one- to four-byte encoding of a scalar value. */
  function EncodeChar(c: char): (b: seq<byte>)
    ensures 1 <= |b| <= 4
    ensures |b| == 1 <==> (c as int) < 0x80
  {
    var cp := c as int;
    if cp < 0x80 then [cp]
    else if cp < 0x800 then [0xC0 + cp / 64, 0x80 + cp % 64]
    else if cp < 0x10000 then [0xE0 + cp / 4096, 0x80 + (cp / 64) % 64, 0x80 + cp % 64]
    else [0xF0 + cp / 262144, 0x80 + (cp / 4096) % 64, 0x80 + (cp / 64) % 64, 0x80 + cp % 64]
  }

  /** `Encoding.UTF8.GetBytes`: the characters' encodings in order. Only
      ASCII text encodes to as many bytes as it has characters. */
  function Encode(s: string): (b: seq<byte>)
    ensures |s| <= |b| <= 4 * |s|
    ensures |b| == |s| <==> forall i :: 0 <= i < |s| ==> (s[i] as int) < 0x80
    decreases |s|
  {
    if |s| == 0 then [] else EncodeChar(s[0]) + Encode(s[1..])
  }

  /** U+FFFD, which the decoder puts in place of a byte it cannot read. */
  const Replacement: char := '\U{FFFD}'

  predicate IsScalar(cp: int) {
    0 <= cp < 0xD800 || 0xE000 <= cp < 0x110000
  }

  function Two(b0: byte, b1: byte): int {
    (b0 - 0xC0) * 64 + (b1 - 0x80)
  }

  function Three(b0: byte, b1: byte, b2: byte): int {
    (b0 - 0xE0) * 4096 + (b1 - 0x80) * 64 + (b2 - 0x80)
  }

  function Four(b0: byte, b1: byte, b2: byte, b3: byte): int {
    (b0 - 0xF0) * 262144 + (b1 - 0x80) * 4096 + (b2 - 0x80) * 64 + (b3 - 0x80)
  }

  /** Reads the first character of a non-empty byte sequence and says how
      many bytes it took. A shortest-form, in-range encoding gives its scalar
      value; anything else gives U+FFFD for one byte. */
  function DecodeFirst(b: seq<byte>): (r: (char, nat))
    requires |b| > 0
    ensures 1 <= r.1 <= |b| && r.1 <= 4
  {
    var b0 := b[0];
    if b0 < 0x80 then (b0 as char, 1)
    else if 0xC2 <= b0 < 0xE0 && 2 <= |b| && IsContinuation(b[1]) then
      (Two(b0, b[1]) as char, 2)
    else if 0xE0 <= b0 < 0xF0 && 3 <= |b| && IsContinuation(b[1]) && IsContinuation(b[2])
            && 0x800 <= Three(b0, b[1], b[2]) && IsScalar(Three(b0, b[1], b[2])) then
      (Three(b0, b[1], b[2]) as char, 3)
    else if 0xF0 <= b0 < 0xF5 && 4 <= |b| && IsContinuation(b[1]) && IsContinuation(b[2])
            && IsContinuation(b[3]) && 0x10000 <= Four(b0, b[1], b[2], b[3]) < 0x110000 then
      (Four(b0, b[1], b[2], b[3]) as char, 4)
    else (Replacement, 1)
  }

  /** `Encoding.UTF8.GetString`: never more characters than bytes, and
      ASCII bytes read as the same ASCII characters. */
  function Decode(b: seq<byte>): (s: string)
    ensures |s| <= |b|
    ensures (forall i :: 0 <= i < |b| ==> b[i] < 0x80) ==>
              |s| == |b| && forall i :: 0 <= i < |b| ==> s[i] as int == b[i]
    decreases |b|
  {
    if |b| == 0 then []
    else
      var (c, n) := DecodeFirst(b);
      [c] + Decode(b[n..])
  }

  lemma TwoBytes(cp: int)
    requires 0x80 <= cp < 0x800
    ensures 0xC2 <= 0xC0 + cp / 64 < 0xE0 && IsContinuation(0x80 + cp % 64)
    ensures Two(0xC0 + cp / 64, 0x80 + cp % 64) == cp
  {
  }

  lemma ThreeBytes(cp: int)
    requires 0x800 <= cp < 0x10000
    ensures 0xE0 <= 0xE0 + cp / 4096 < 0xF0
    ensures IsContinuation(0x80 + (cp / 64) % 64) && IsContinuation(0x80 + cp % 64)
    ensures Three(0xE0 + cp / 4096, 0x80 + (cp / 64) % 64, 0x80 + cp % 64) == cp
  {
    var y := cp / 64;
    var z := y / 64;
    assert cp == 64 * y + cp % 64;
    assert y == 64 * z + y % 64;
    assert cp / 4096 == z;
  }

  lemma FourBytes(cp: int)
    requires 0x10000 <= cp < 0x110000
    ensures 0xF0 <= 0xF0 + cp / 262144 < 0xF5
    ensures IsContinuation(0x80 + (cp / 4096) % 64)
    ensures IsContinuation(0x80 + (cp / 64) % 64) && IsContinuation(0x80 + cp % 64)
    ensures Four(0xF0 + cp / 262144, 0x80 + (cp / 4096) % 64, 0x80 + (cp / 64) % 64, 0x80 + cp % 64) == cp
  {
    var y := cp / 64;
    var z := y / 64;
    var w := z / 64;
    assert cp == 64 * y + cp % 64;
    assert y == 64 * z + y % 64;
    assert z == 64 * w + z % 64;
    assert cp / 4096 == z;
    assert cp / 262144 == w;
  }

  lemma DecodeFirstOfEncodeChar(c: char, rest: seq<byte>)
    ensures DecodeFirst(EncodeChar(c) + rest) == (c, |EncodeChar(c)|)
  {
    var cp := c as int;
    var b := EncodeChar(c) + rest;
    if cp < 0x80 {
    } else if cp < 0x800 {
      TwoBytes(cp);
      assert b[0] == 0xC0 + cp / 64 && b[1] == 0x80 + cp % 64;
    } else if cp < 0x10000 {
      ThreeBytes(cp);
      assert b[0] == 0xE0 + cp / 4096 && b[1] == 0x80 + (cp / 64) % 64 && b[2] == 0x80 + cp % 64;
    } else {
      FourBytes(cp);
      assert b[0] == 0xF0 + cp / 262144 && b[1] == 0x80 + (cp / 4096) % 64;
      assert b[2] == 0x80 + (cp / 64) % 64 && b[3] == 0x80 + cp % 64;
    }
  }

  /** Decoding an encoding gives back the original string. */
  lemma {:induction false} RoundTrip(s: string)
    ensures Decode(Encode(s)) == s
    decreases |s|
  {
    if |s| > 0 {
      DecodeStep(s[0], Encode(s[1..]));
      RoundTrip(s[1..]);
      assert s == [s[0]] + s[1..];
    }
  }

  /** Decoding a character's encoding in front of more bytes gives the
      character, then the decoding of those bytes. */
  lemma DecodeStep(c: char, rest: seq<byte>)
    ensures Decode(EncodeChar(c) + rest) == [c] + Decode(rest)
  {
    var e := EncodeChar(c);
    DecodeFirstOfEncodeChar(c, rest);
    assert (e + rest)[|e|..] == rest;
  }
}
